=== FILE: README.md ===
# Record stores of an agricultural project dashboard

This Dafny project models the in-memory record stores behind a React
dashboard for agricultural and development projects. Every store is a list of
records changed by deterministic list operations. The modules are:

- **`ProjectContext`** (`project_context.dfy`): the project store. It appends
  a project, patch-merges by id, deletes by id (clearing the selected
  project), selects by id, and appends or patches nested activities. It also
  computes the rounded average activity progress and the overall statistics.
- **`ProjectManagement`** (`project_management.dfy`): the project screen. A
  status filter sits over the store, and the table's row actions turn a row
  index of the *filtered* list into a project id.
- **`FormBuilder`** (`form_builder.dfy`): the survey form builder. It keeps an
  ordered field list with add, patch-by-id and remove-by-id. Saving is guarded
  by a non-blank name and at least one field. Select options are edited one
  per line in a textarea.
- **`MonitoringEvaluation`** (`monitoring_evaluation.dfy`): indicator and
  activity tables.
  - Cells are edited at a row index. Editing a driving number recomputes the
    status: thresholds 80/60 on current/target for indicators; 100/50/>0 on
    the rounded percentage actual/planned for activities.
  - Rows are appended with defaults and deleted by index.
  - The overall on-track percentage is computed.
- **`CropTracking`** (`crop_tracking.dfy`): the crop evaluation table. It
  updates, deletes and appends by index with `||` defaults, and computes
  summary statistics.
- **`DataCollection`** (`data_collection.dfy`): survey forms and collected
  entries. It covers cell edits, saving a built form as a new survey form,
  validating and rejecting entries by id, and the pending, validated and
  response counters.
- **`SectorContext`** (`sector_context.dfy`): the selected sector. It is found
  by id among three fixed configurations, falling back to the first one. It
  also holds a configuration-mode toggle.
- **`Common`** (`common.dfy`): the shared list operations and helpers:
  - JavaScript's `filter`, `map`, `find`, `reduce`, index filtering and `x || default`;
  - decimal rendering of counters;
  - `Math.round` of an integer quotient, tied to the exact real-valued
    percentage `Percent(c, t) = c / t * 100`.

A component's `useState` variables become the fields of a class. Its handlers
become methods whose postconditions give the new state as a function of the
old one. The list transformations and queries are functions with contracts,
and the properties relating them are lemmas.

Record types are Dafny datatypes. TypeScript optional members become
`Option`. A table cell write `{ ...row, [columnId]: value }` becomes a column
enumeration with `Get`/`Set` functions over a `Cell` (text, number or flag)
that obey the lens laws. Generated ids (`Math.random`, `Date.now`) and
today's date are parameters.

## Model

| member | source | states |
|---|---|---|
| ProjectContext.MergeLaws | src/contexts/ProjectContext.tsx:151-155 | `{ ...p, ...u }`: an empty patch changes nothing, a patch applied twice acts once, two patches compose, a full patch overwrites |
| ProjectContext.UpdateProjects | src/contexts/ProjectContext.tsx:151-155 | length and order kept; projects with another id unchanged; each project with the id becomes the merge of itself and the patch |
| ProjectContext.DeleteProjects | src/contexts/ProjectContext.tsx:157-158 | exactly the projects without the id remain, as a subsequence; the length drops by the number of projects with the id |
| ProjectContext.FindProject | src/contexts/ProjectContext.tsx:164-166 | `None` iff no project has the id; otherwise the project at the first index with that id |
| ProjectContext.AddActivityTo | src/contexts/ProjectContext.tsx:169-180 | only the activities of projects with the id change, gaining the new activity (generated id) at the end; an unknown project id leaves the list unchanged |
| ProjectContext.UpdateActivityIn | src/contexts/ProjectContext.tsx:182-193 | only activities with the activity id, inside projects with the project id, are merged with the patch; all other fields, activities and projects are unchanged; an unknown project id leaves the list unchanged |
| ProjectContext.ProjectProgress | src/contexts/ProjectContext.tsx:195-201 | 0 for an unknown project or one with no activities; otherwise the mean activity progress rounded half up (bounded by the rounding inequalities); in [0,100] when every progress value is |
| ProjectContext.MeanProgressIsPercent | src/contexts/ProjectContext.tsx:199-200 | the rounded mean of progress values in [0,100] lies in [0,100] |
| ProjectContext.OverallStats | src/contexts/ProjectContext.tsx:203-211 | total = length; active and completed are the counts by status and together at most the total; budget and beneficiaries are the sums over all projects |
| ProjectContext.StatsAfterAdd | src/contexts/ProjectContext.tsx:203-211 | adding a project raises the total by one, the matching status count by one, and the sums by its budget and beneficiaries |
| ProjectContext.UpdateLeavesSnapshotStale | src/contexts/ProjectContext.tsx:140-155 | after a renaming update the selected snapshot no longer occurs in the store; the merged version does |
| ProjectContext.InitialProgress | src/contexts/ProjectContext.tsx:195-201 | on the seed data, project "1" has progress 68 (mean 67.5 rounded up) and an unknown project 0 |
| ProjectContext.InitialStats | src/contexts/ProjectContext.tsx:203-211 | on the seed data: 2 projects, 2 active, 0 completed, budget 350000, 1700 beneficiaries |
| ProjectContext.ProjectStore.constructor | src/contexts/ProjectContext.tsx:140-141 | the store starts with the seed projects and no selection |
| ProjectContext.ProjectStore.AddProject | src/contexts/ProjectContext.tsx:143-149 | the project, with the generated id, is appended; all existing projects kept in order; the selection untouched |
| ProjectContext.ProjectStore.UpdateProject | src/contexts/ProjectContext.tsx:151-155 | the list becomes `UpdateProjects` of the old list; the selection is not touched |
| ProjectContext.ProjectStore.DeleteProject | src/contexts/ProjectContext.tsx:157-162 | the list becomes `DeleteProjects` of the old list; the selection becomes empty iff its id is the deleted id, otherwise it is unchanged |
| ProjectContext.ProjectStore.SetCurrentProject | src/contexts/ProjectContext.tsx:164-167 | the selection becomes the first project with the id, or none |
| ProjectContext.ProjectStore.AddActivity | src/contexts/ProjectContext.tsx:169-180 | the list becomes `AddActivityTo` of the old list |
| ProjectContext.ProjectStore.UpdateActivity | src/contexts/ProjectContext.tsx:182-193 | the list becomes `UpdateActivityIn` of the old list |
| ProjectManagement.FilteredProjects | src/components/ProjectManagement.tsx:46-49 | 'all' yields the whole list; any other filter yields exactly the projects with that status, each as often as in the store, so the row count is their count; always an order-preserving subsequence, no longer than the store |
| ProjectManagement.ScreenOverview | src/components/ProjectManagement.tsx:44-49 | the statistics are those of the whole store whatever the filter; the row count equals the matching statistic (total, active, completed), and under 'planning' the number of planning projects |
| ProjectManagement.ParseStatus | src/components/ProjectManagement.tsx:71-81 | a status cell parses exactly the four status names, inverting `StatusName` |
| ProjectManagement.ColumnEdit | src/components/ProjectManagement.tsx:83-87 | a one-column patch sets that column to the value and keeps every other column and non-table field |
| ProjectManagement.RowEditTargetsShownProject | src/components/ProjectManagement.tsx:83-87 | editing row i patches the project shown in row i of the filtered list; projects with other ids are unchanged |
| ProjectManagement.FilteredRowIsNotStoreRow | src/components/ProjectManagement.tsx:83-87 | under a filter, row 0 of the view can be a different project than row 0 of the store |
| ProjectManagement.RowDeleteRemovesShownProject | src/components/ProjectManagement.tsx:89-93 | deleting row i removes the shown project from the store, which gets shorter |
| ProjectManagement.DetailsSelectShownProject | src/components/ProjectManagement.tsx:320-326 | with unique ids, "view details" on row i selects exactly the project shown in row i |
| ProjectManagement.HandleProjectUpdate | src/components/ProjectManagement.tsx:83-87 | the store is updated by the id of the filtered row; the selection is kept |
| ProjectManagement.HandleProjectDelete | src/components/ProjectManagement.tsx:89-93 | the store deletes the id of the filtered row, clearing a selection with that id |
| ProjectManagement.ShowDetails | src/components/ProjectManagement.tsx:320-326 | the selection becomes the store's first project with the filtered row's id; it is never empty |
| FormBuilder.MergeField | src/components/FormBuilder.tsx:68-72 | an empty field patch changes nothing |
| FormBuilder.FieldMergeLaws | src/components/FormBuilder.tsx:68-72 | `{ ...field, ...updates }`: a patch applied twice acts once, two patches compose, and a patch carrying every member of a field with all optional members present yields that field |
| FormBuilder.NewField | src/components/FormBuilder.tsx:56-66 | the new field has the type, the label "Nouveau champ " + type, required false, an empty placeholder, and options ['Option 1','Option 2'] iff its type is select |
| FormBuilder.UpdateFields | src/components/FormBuilder.tsx:68-72 | length and order kept; fields with the id merged with the patch; others unchanged |
| FormBuilder.RemoveFields | src/components/FormBuilder.tsx:74-76 | exactly the fields without the id remain, in order; the length drops by their count |
| FormBuilder.Trim | src/components/FormBuilder.tsx:79 | `trim`: the slice that starts after the leading white space and is followed only by white space; empty iff the text is all white space, otherwise it starts and ends with non-white space |
| FormBuilder.Save | src/components/FormBuilder.tsx:78-93 | a blank name is rejected first; a non-blank name with no fields is rejected next; otherwise exactly the current name, description and fields are emitted |
| FormBuilder.SaveEnabled | src/components/FormBuilder.tsx:321 | the save button is enabled iff the name has a non-white-space character and there is at least one field |
| FormBuilder.SaveButtonMatchesGuards | src/components/FormBuilder.tsx:78-93 | the save button is enabled exactly when saving succeeds |
| FormBuilder.SaveExamples | src/components/FormBuilder.tsx:78-93 | "" and "  " are rejected for the name; "Survey" with one field is saved with one field |
| FormBuilder.SplitLines | src/components/FormBuilder.tsx:296 | `split('\n')` yields at least one piece and no piece contains a newline |
| FormBuilder.ParseOptions | src/components/FormBuilder.tsx:296 | the stored options never contain an empty string or a newline |
| FormBuilder.JoinSplit | src/components/FormBuilder.tsx:294-296 | joining the split pieces on newline gives back the text |
| FormBuilder.SplitJoin | src/components/FormBuilder.tsx:294-296 | splitting the join of newline-free lines gives back the lines |
| FormBuilder.OptionsRoundTrip | src/components/FormBuilder.tsx:294-296 | options that are non-empty and newline-free survive display and re-parse unchanged |
| FormBuilder.ParseOptionsStable | src/components/FormBuilder.tsx:294-296 | re-reading the textarea after one edit changes nothing more |
| FormBuilder.FormBuilderState.constructor | src/components/FormBuilder.tsx:51-53 | the builder starts with an empty name, description and field list |
| FormBuilder.FormBuilderState.SetFormName | src/components/FormBuilder.tsx:203-206 | the name takes the typed text; description and fields are kept |
| FormBuilder.FormBuilderState.SetFormDescription | src/components/FormBuilder.tsx:212-215 | the description takes the typed text; name and fields are kept |
| FormBuilder.FormBuilderState.AddField | src/components/FormBuilder.tsx:56-66 | exactly one new default field is appended; the name and description are kept |
| FormBuilder.FormBuilderState.UpdateField | src/components/FormBuilder.tsx:68-72 | the fields become `UpdateFields` of the old fields |
| FormBuilder.FormBuilderState.RemoveField | src/components/FormBuilder.tsx:74-76 | the fields become `RemoveFields` of the old fields |
| FormBuilder.FormBuilderState.EditOptions | src/components/FormBuilder.tsx:294-297 | the edited field's options become the parsed textarea lines |
| FormBuilder.FormBuilderState.HandleSave | src/components/FormBuilder.tsx:78-93 | the outcome is `Save` of the current state; it succeeds iff the save button is enabled |
| MonitoringEvaluation.IndicatorStatusFor | src/components/MonitoringEvaluation.tsx:206-211 | with a non-zero target: on track iff current/target*100 ≥ 80, at risk iff it is in [60,80); with a zero target (±Infinity or NaN in JavaScript): on track iff current > 0, never at risk |
| MonitoringEvaluation.IndicatorStatusMonotone | src/components/MonitoringEvaluation.tsx:209-211 | a higher current/target ratio never gives a worse status |
| MonitoringEvaluation.ActivityProgress | src/components/MonitoringEvaluation.tsx:227 | the stored progress is within half a point of actual/planned*100 (Math.round) |
| MonitoringEvaluation.ActivityStatusFor | src/components/MonitoringEvaluation.tsx:229-233 | completed iff progress ≥ 100, in progress iff 50 ≤ progress < 100, delayed iff 0 < progress < 50, not started iff progress ≤ 0 |
| MonitoringEvaluation.ActivityStatusMonotone | src/components/MonitoringEvaluation.tsx:229-233 | more progress never gives a worse activity status |
| MonitoringEvaluation.CompletedFromNinetyNineAndAHalf | src/components/MonitoringEvaluation.tsx:227-230 | with a positive plan, an activity is completed iff actual ≥ 99.5% of planned (rounding first) |
| MonitoringEvaluation.ActivityStatusEnds | src/components/MonitoringEvaluation.tsx:227-233 | with a positive plan, nothing done is not-started and the plan met is completed |
| MonitoringEvaluation.ParseType | src/components/MonitoringEvaluation.tsx:155-156 | the type cell parses exactly the four type names |
| MonitoringEvaluation.SetIndicator | src/components/MonitoringEvaluation.tsx:201 | the edited column takes the value; every other column and field is kept |
| MonitoringEvaluation.EditIndicator | src/components/MonitoringEvaluation.tsx:199-214 | the cell is set; after an edit of baseline, target or current the status is the rule applied to the updated row; after any other edit the status is kept |
| MonitoringEvaluation.SetActivity | src/components/MonitoringEvaluation.tsx:222 | the edited column takes the value; every other column, the id, progress and status are kept |
| MonitoringEvaluation.EditActivity | src/components/MonitoringEvaluation.tsx:220-236 | the cell is set; after an edit of planned or actual, progress is the rounded percentage of the updated row and status follows it; otherwise both are kept |
| MonitoringEvaluation.NewIndicator | src/components/MonitoringEvaluation.tsx:371-385 | id = decimal of length+1; baseline, target and current 0; off track, stable, updated today; name, category and unit from the form or defaults |
| MonitoringEvaluation.NewActivity | src/components/MonitoringEvaluation.tsx:410-422 | id = decimal of length+1; planned, actual and progress 0; not-started; due today; responsible "Non assigné"; name, type and unit from the form or defaults |
| MonitoringEvaluation.NewIndicatorIdFresh | src/components/MonitoringEvaluation.tsx:373 | while ids are "1".."n" in order, the generated id is fresh |
| MonitoringEvaluation.DeleteThenAddDuplicatesId | src/components/MonitoringEvaluation.tsx:373-389 | after deleting any row but the last, the next added indicator duplicates the id of the last row |
| MonitoringEvaluation.OverallProgress | src/components/MonitoringEvaluation.tsx:252-255 | none for an empty table; otherwise within half a point of on-track/length*100, and in [0,100] |
| MonitoringEvaluation.AllOnTrackIsHundred | src/components/MonitoringEvaluation.tsx:252-255 | all indicators on track gives 100 |
| MonitoringEvaluation.NoneOnTrackIsZero | src/components/MonitoringEvaluation.tsx:252-255 | no indicator on track gives 0 |
| MonitoringEvaluation.SeedStatusesDisagreeWithRules | src/components/MonitoringEvaluation.tsx:102-139 | seeded activity progress values agree with the rounding rule; re-entering the third activity's actual value turns "delayed" into "in progress"; 45 of 80 is off track though seeded at risk |
| MonitoringEvaluation.MonitoringBoard.constructor | src/components/MonitoringEvaluation.tsx:57-139 | the board starts with the given indicator rows and the three seed activities |
| MonitoringEvaluation.MonitoringBoard.UpdateIndicator | src/components/MonitoringEvaluation.tsx:199-218 | only row `rowIndex` changes, to `EditIndicator` of it; the length and the activities are kept |
| MonitoringEvaluation.MonitoringBoard.UpdateActivity | src/components/MonitoringEvaluation.tsx:220-240 | only row `rowIndex` changes, to `EditActivity` of it; the length and the indicators are kept |
| MonitoringEvaluation.MonitoringBoard.AddIndicator | src/components/MonitoringEvaluation.tsx:371-386 | exactly one new indicator is appended |
| MonitoringEvaluation.MonitoringBoard.AddActivity | src/components/MonitoringEvaluation.tsx:410-423 | exactly one new activity is appended |
| MonitoringEvaluation.MonitoringBoard.DeleteIndicator | src/components/MonitoringEvaluation.tsx:388-389 | exactly row `rowIndex` is removed, the rest keep their order |
| MonitoringEvaluation.MonitoringBoard.DeleteActivity | src/components/MonitoringEvaluation.tsx:425-426 | exactly row `rowIndex` is removed, the rest keep their order |
| CropTracking.Set | src/components/CropTrackingEvaluation.tsx:183 | the edited column takes the value; the id and every other column are kept |
| CropTracking.ColumnsDetermineRecord | src/components/CropTrackingEvaluation.tsx:9-23 | the id and the twelve columns determine a record, so "other columns kept" means "nothing else changed" |
| CropTracking.UpdateRow | src/components/CropTrackingEvaluation.tsx:180-185 | same length; only row i changes, and only in the edited column; an out-of-range index changes nothing |
| CropTracking.DeleteRow | src/components/CropTrackingEvaluation.tsx:189-190 | an in-range index removes exactly that row, shortening the list by one and keeping order; an out-of-range index changes nothing |
| CropTracking.NewEvaluation | src/components/CropTrackingEvaluation.tsx:194-209 | the generated id and today's date; falsy inputs fall back to 'Croissance', 'Bonne', 'Moyenne', 'En cours', 0 and '' |
| CropTracking.EmptyDraftDefaults | src/components/CropTrackingEvaluation.tsx:194-209 | an empty form yields exactly the default record |
| CropTracking.GetStatistics | src/components/CropTrackingEvaluation.tsx:214-221 | total = length; optimal and action-required are the counts of those statuses, together at most the total; the average is none for an empty table and otherwise times the total gives the yield sum |
| CropTracking.Mean | src/components/CropTrackingEvaluation.tsx:218 | the mean is none for zero values (0 / 0) and otherwise times the count gives the total |
| CropTracking.AverageWithinBounds | src/components/CropTrackingEvaluation.tsx:218 | the average yield lies between any lower and upper bound of the yields |
| CropTracking.MeanBetween | src/components/CropTrackingEvaluation.tsx:218 | a sum between n·lo and n·hi divided by n lies between lo and hi |
| CropTracking.StatisticsAfterAdd | src/components/CropTrackingEvaluation.tsx:210-217 | appending raises the total by one and a status count by one exactly when the record has that status |
| CropTracking.AverageOfTwo | src/components/CropTrackingEvaluation.tsx:218 | yields 70 and 90 average 80 |
| CropTracking.InitialStatistics | src/components/CropTrackingEvaluation.tsx:214-221 | the seed table: 3 rows, 1 optimal, 1 needing action, mean 242/3 |
| CropTracking.CropTracker.constructor | src/components/CropTrackingEvaluation.tsx:178 | the table starts with the seed data |
| CropTracking.CropTracker.HandleUpdate | src/components/CropTrackingEvaluation.tsx:180-187 | the data becomes `UpdateRow` of the old data |
| CropTracking.CropTracker.HandleDelete | src/components/CropTrackingEvaluation.tsx:189-192 | the data becomes `DeleteRow` of the old data |
| CropTracking.CropTracker.HandleAdd | src/components/CropTrackingEvaluation.tsx:194-212 | exactly one new record is appended |
| DataCollection.SetForm | src/components/DataCollection.tsx:138-158 | the edited column (name, sector or active flag, the editable ones) takes the value; the other editable columns, id, description, fields, response counter and creation date are kept |
| DataCollection.FormEditKeepsResponses | src/components/DataCollection.tsx:141 | the response counter is not editable, so no cell edit in the forms table changes the response total |
| DataCollection.ParseStatus | src/components/DataCollection.tsx:149-150 | the status cell parses exactly the four status names |
| DataCollection.SetEntry | src/components/DataCollection.tsx:146-165 | the status, the only editable entry column, takes the parsed value; every other member (submitter, date, answers, notes) is kept |
| DataCollection.SavedField | src/components/DataCollection.tsx:173-179 | id, label, type and options are copied; required is true iff the builder's was true; no validation is kept |
| DataCollection.SavedFields | src/components/DataCollection.tsx:173-179 | the saved field list has the builder's length and order |
| DataCollection.SavedForm | src/components/DataCollection.tsx:167-183 | name and description as built, sector 'general', active, 0 responses, created today, the mapped fields |
| DataCollection.SetEntryStatus | src/components/DataCollection.tsx:398-415 | entries with the id get the status and keep everything else; other entries and the length are unchanged |
| DataCollection.PendingEntries | src/components/DataCollection.tsx:376 | the validation queue is exactly the submitted entries, each as often as in the table, in order; its length is their count |
| DataCollection.PendingCount | src/components/DataCollection.tsx:282 | the pending counter is the queue's length |
| DataCollection.ValidatedCount | src/components/DataCollection.tsx:294 | validated entries are at most the non-pending entries |
| DataCollection.TotalResponses | src/components/DataCollection.tsx:270 | the sum of the forms' responses, non-negative when every counter is |
| DataCollection.SetStatusOfUnique | src/components/DataCollection.tsx:399-401 | with unique ids, setting a status by id changes that one entry only |
| DataCollection.ValidateMovesOne | src/components/DataCollection.tsx:398-401 | with unique ids, validating a submitted entry lowers pending by one and raises validated by one |
| DataCollection.RejectLeavesValidated | src/components/DataCollection.tsx:412-415 | with unique ids, rejecting a submitted entry lowers pending by one, leaves validated alone and drops it from the queue |
| DataCollection.FormSaveKeepsResponses | src/components/DataCollection.tsx:167-188 | saving a form leaves the response total unchanged |
| DataCollection.BuilderSaveStoresForm | src/components/DataCollection.tsx:167-185 | a form accepted by the builder is stored with its non-blank name and its at least one field |
| DataCollection.InitialCounters | src/components/DataCollection.tsx:72-136 | the seed data: 57 responses, 1 pending, 1 validated |
| DataCollection.DataCollectionState.constructor | src/components/DataCollection.tsx:68-136 | the screen starts with the seed data, nothing selected, the builder closed |
| DataCollection.DataCollectionState.HandleFormUpdate | src/components/DataCollection.tsx:153-158 | only form `rowIndex` changes, to `SetForm` of it; entries untouched |
| DataCollection.DataCollectionState.HandleEntryUpdate | src/components/DataCollection.tsx:160-165 | only entry `rowIndex` changes, to `SetEntry` of it; forms untouched |
| DataCollection.DataCollectionState.HandleFormSave | src/components/DataCollection.tsx:167-188 | exactly one saved form is appended and the builder dialog closes |
| DataCollection.DataCollectionState.SetShowFormBuilder | src/components/DataCollection.tsx:234 | the dialog flag takes the value; nothing else changes |
| DataCollection.DataCollectionState.Preview | src/components/DataCollection.tsx:325-328 | the selected form becomes the form in that row |
| DataCollection.DataCollectionState.Validate | src/components/DataCollection.tsx:398-404 | the entries become `SetEntryStatus(…, Validated)` of the old entries |
| DataCollection.DataCollectionState.Reject | src/components/DataCollection.tsx:412-418 | the entries become `SetEntryStatus(…, Rejected)` of the old entries |
| SectorContext.SectorConfigs | src/types/sector-config.ts:72-155 | three configurations: agriculture, education, health |
| SectorContext.CurrentSectorOf | src/contexts/SectorContext.tsx:22 | the first configuration with the stored id when there is one, otherwise the first configuration |
| SectorContext.ResolvesExactlyKnownIds | src/contexts/SectorContext.tsx:22 | the resolved sector has the stored id iff it is one of the three known ids |
| SectorContext.UnknownIdFallsBack | src/contexts/SectorContext.tsx:22-26 | an unknown id resolves to agriculture |
| SectorContext.SectorStore.constructor | src/contexts/SectorContext.tsx:19-20 | the id starts as 'agriculture' and config mode off; the current sector is agriculture |
| SectorContext.SectorStore.CurrentSector | src/contexts/SectorContext.tsx:22 | the current sector is always one of the configurations, and carries the stored id iff that id is a known one |
| SectorContext.SectorStore.AvailableSectors | src/contexts/SectorContext.tsx:34 | always the full configuration list, which contains the current sector |
| SectorContext.SectorStore.SwitchSector | src/contexts/SectorContext.tsx:24-26 | any id is stored unchecked; the current sector is its resolution |
| SectorContext.SectorStore.ToggleConfigMode | src/contexts/SectorContext.tsx:28-30 | the flag is negated, so two toggles restore it; the sector is kept |
| Common.Filter | src/contexts/ProjectContext.tsx:158 | `filter`: kept elements are exactly those passing the test, with their multiplicities, as a subsequence |
| Common.MapWhere | src/contexts/ProjectContext.tsx:152-154 | `map` with a conditional body: same length; each element that matches becomes its image, the others are kept |
| Common.MapAt | src/components/CropTrackingEvaluation.tsx:182-184 | map on index: only index i changes; an out-of-range i changes nothing |
| Common.RemoveAt | src/components/CropTrackingEvaluation.tsx:190 | filter on index: exactly index i is removed; an out-of-range i changes nothing |
| Common.IndexWhere | src/contexts/ProjectContext.tsx:165 | the first index passing the test, or -1 iff none does |
| Common.Find | src/contexts/ProjectContext.tsx:165 | `find`: none iff no element passes; otherwise the first element of the list that passes |
| Common.SumAppend | src/contexts/ProjectContext.tsx:208-209 | `reduce` summing: the sum over a concatenation is the sum of the sums |
| Common.SumReplace | src/components/DataCollection.tsx:270 | `reduce` summing: replacing one element moves the sum by the difference of the two terms |
| Common.SumNonNegative | src/components/DataCollection.tsx:270 | `reduce` summing non-negative terms gives a non-negative total |
| Common.SumBounds | src/components/CropTrackingEvaluation.tsx:218 | `reduce` summing n terms in [lo, hi] gives a total in [n·lo, n·hi] |
| Common.TextOr | src/components/CropTrackingEvaluation.tsx:197-208 | `x || d`: the input when it is a non-empty string, otherwise the default |
| Common.NumberOrZero | src/components/CropTrackingEvaluation.tsx:202 | `x \|\| 0`: the input when present, otherwise 0 (a present 0 is 0 either way) |
| Common.NatToString | src/components/MonitoringEvaluation.tsx:373 | `toString` of a counter: non-empty decimal digits without a leading zero |
| Common.NatToStringRoundTrip | src/components/MonitoringEvaluation.tsx:373 | reading the rendered digits back gives the number |
| Common.RoundDiv | src/contexts/ProjectContext.tsx:200 | `Math.round(n / d)`: the nearest integer to n/d, halves rounded up, for either sign of d |
| Common.RoundDivUnique | src/contexts/ProjectContext.tsx:200 | the rounding inequalities determine the result |
| Common.RoundedPercent | src/components/MonitoringEvaluation.tsx:227-254 | `Math.round(c / t * 100)` is within half a unit of the exact percentage |
| Common.PercentAtLeast | src/components/MonitoringEvaluation.tsx:206-211 | comparing `c / t * 100` with a threshold is a cross-multiplication whose direction follows the sign of t |

## Left out

- Rendering: JSX, layout, icons, dialogs, tabs, badge colours and emoji decorations (the `enhanced*Data` maps, `getStatusBadge`, `getStatusIcon`). The grid view's "Voir" button calls `setCurrentProject` by id and is covered by `SetCurrentProject`.
- Toast notifications, `handleSyncOfflineData`, the online flag, and `exportModuleData`/`handleExport`. These are side effects or calls into a CRM context that is not part of this model.
- The `EditableTable` component is not part of this model; only the callbacks it invokes are. Each table's column enumeration lists exactly the columns the table marks editable (`isEditable`), since only those can reach the update callback; display-only columns (indicator and activity progress and status, form responses and creation date, entry submitter and date) are not cell-editable in the model.
- The form builder's preview mode and field rendering, which are display only.
- Generated ids (`Math.random().toString(36)`, `Date.now()`) and `new Date().toISOString()` are parameters; nothing guarantees their freshness.
- Floating point. All numbers are integers, so the seed indicator with baseline 5.2, target 8.0 and current 6.8 is not representable, and `MonitoringBoard.constructor` takes the indicator rows as a parameter. Exact real arithmetic (`Percent`) stands for the float divisions, so rounding error in the divisions is not modelled: `current / target * 100` for indicators, `Math.round(actual / planned * 100)` for activities, `Math.round(onTrack / total * 100)` for overall progress, and the crop yield mean `sum / total` (`avgRendement`, a `real` in `GetStatistics` and `Mean`). For example JavaScript gives `Math.round(201 / 200 * 100) == 100`, where the model gives 101. The project mean `Math.round(total / count)` is rounded the same way. `toFixed`/`toLocaleString` are display only.
- MonitoringEvaluation.EditActivity: requires a non-zero planned value after an edit of planned or actual. In JavaScript a zero plan stores an Infinity or NaN progress, which an integer cannot hold. The indicator rule does cover a zero target, because its result is only a status.
- MonitoringEvaluation.MonitoringBoard.UpdateIndicator, MonitoringEvaluation.MonitoringBoard.UpdateActivity, DataCollection.DataCollectionState.HandleFormUpdate and DataCollection.DataCollectionState.HandleEntryUpdate require an in-range row index. In JavaScript, assigning past the end of the copied array creates holes and a partial record.
- ProjectManagement.HandleProjectUpdate, ProjectManagement.HandleProjectDelete and ProjectManagement.ShowDetails require an in-range row index. In JavaScript an out-of-range row reads `id` of `undefined` and throws.
- DataCollection.DataCollectionState.Preview requires an in-range row index. In JavaScript an out-of-range row selects `undefined`.
- The select columns (project, entry and activity status, activity type) accept only their option names. Cell values of another type (JavaScript's `any`) are excluded by the `Fits` predicates.
- A patch that sets a member explicitly to `undefined` is not modelled; an absent member (`None`) keeps the old value.
- `DataEntry.location` (an optional latitude/longitude pair) is not modelled, since no operation reads or writes it.
- `MonitoringEvaluation.NewActivity`: the add form's type is an `Option` of the four types, so an arbitrary string typed into it is not modelled.
- A sector configuration's description, modules and evaluation framework are static data and not part of this model; only id and name are.
- `useSector` raising an error outside its provider is React wiring and is not modelled.

=== FILE: common.dfy ===
/**
 * Shared vocabulary of the dashboard's record stores: optional values, the
 * scalar cells an editable table holds, the list transformations every store
 * is built from (filter, map-where, remove-at-index, find-first, reduce-sum),
 * JavaScript's `x || default` fallbacks, decimal rendering of counters and
 * `Math.round` of a quotient of integers.
 */
module Common {

  datatype Option<+T> = None | Some(value: T) {
    function GetOr(default: T): T {
      match this
      case Some(v) => v
      case None => default
    }
  }

  /** One optional member of `{ ...earlier, ...later }`: the later patch wins where it is present. */
  function Or<T>(later: Option<T>, earlier: Option<T>): Option<T> {
    if later.Some? then later else earlier
  }

  /** A scalar table cell, as JavaScript holds it: a string, a number or a boolean. */
  datatype Cell = Text(text: string) | Number(number: int) | Flag(flag: bool)

  // ---------------------------------------------------------------------------
  // Subsequences
  // ---------------------------------------------------------------------------

  /** `a` can be obtained from `b` by deleting elements, keeping the order. */
  ghost predicate IsSubseq<T>(a: seq<T>, b: seq<T>)
    decreases |b|
  {
    if a == [] then true
    else if b == [] then false
    else (a[0] == b[0] && IsSubseq(a[1..], b[1..])) || IsSubseq(a, b[1..])
  }

  // ---------------------------------------------------------------------------
  // Array.prototype.filter
  // ---------------------------------------------------------------------------

  /** `s.filter(keep)`: the elements that pass, in their original order. */
  function Filter<T(!new)>(s: seq<T>, keep: T -> bool): (r: seq<T>)
    ensures |r| <= |s|
    ensures forall x :: multiset(r)[x] == if keep(x) then multiset(s)[x] else 0
    ensures forall x :: x in r <==> x in s && keep(x)
    ensures IsSubseq(r, s)
  {
    if s == [] then []
    else
      assert s == [s[0]] + s[1..];
      if keep(s[0]) then [s[0]] + Filter(s[1..], keep) else Filter(s[1..], keep)
  }

  /** The number of elements that pass `keep` (`s.filter(keep).length`). */
  function Count<T(!new)>(s: seq<T>, keep: T -> bool): (n: nat)
    ensures n <= |s|
  {
    |Filter(s, keep)|
  }

  lemma {:induction false} FilterAppend<T(!new)>(a: seq<T>, b: seq<T>, keep: T -> bool)
    ensures Filter(a + b, keep) == Filter(a, keep) + Filter(b, keep)
    decreases |a|
  {
    if a == [] {
      assert a + b == b;
    } else {
      assert (a + b)[1..] == a[1..] + b;
      FilterAppend(a[1..], b, keep);
    }
  }

  /** Appending one element adds one to the count exactly when it passes. */
  lemma CountAppend<T(!new)>(s: seq<T>, x: T, keep: T -> bool)
    ensures Count(s + [x], keep) == Count(s, keep) + (if keep(x) then 1 else 0)
  {
    FilterAppend(s, [x], keep);
    assert [x][1..] == [];
  }

  /** The count over a two-element list. */
  lemma CountPair<T(!new)>(a: T, b: T, keep: T -> bool)
    ensures Count([a, b], keep) == (if keep(a) then 1 else 0) + (if keep(b) then 1 else 0)
  {
    assert [a, b][1..] == [b];
    assert [b][1..] == [];
  }

  /** When every element passes, the filter is the identity. */
  lemma {:induction false} FilterAll<T(!new)>(s: seq<T>, keep: T -> bool)
    requires forall x :: x in s ==> keep(x)
    ensures Filter(s, keep) == s
  {
    if s != [] {
      FilterAll(s[1..], keep);
    }
  }

  /** Elements that pass and elements that fail partition the list. */
  lemma {:induction false} CountComplement<T(!new)>(s: seq<T>, keep: T -> bool, drop: T -> bool)
    requires forall x :: drop(x) == !keep(x)
    ensures Count(s, keep) + Count(s, drop) == |s|
  {
    if s != [] {
      CountComplement(s[1..], keep, drop);
    }
  }

  /** Two predicates that never hold together count at most the whole list. */
  lemma {:induction false} CountDisjoint<T(!new)>(s: seq<T>, p: T -> bool, q: T -> bool)
    requires forall x :: !(p(x) && q(x))
    ensures Count(s, p) + Count(s, q) <= |s|
  {
    if s != [] {
      CountDisjoint(s[1..], p, q);
    }
  }

  /** The count of a non-empty list: its head's contribution plus the count of its tail. */
  lemma CountCons<T(!new)>(s: seq<T>, keep: T -> bool)
    requires s != []
    ensures Count(s, keep) == (if keep(s[0]) then 1 else 0) + Count(s[1..], keep)
  {
  }

  /** Replacing the element at `k` moves the count by what the old and new element contribute. */
  lemma {:induction false} CountReplace<T(!new)>(s: seq<T>, k: nat, y: T, keep: T -> bool)
    requires k < |s|
    ensures Count(s[k := y], keep) + (if keep(s[k]) then 1 else 0)
         == Count(s, keep) + (if keep(y) then 1 else 0)
  {
    var t := s[k := y];
    CountCons(s, keep);
    CountCons(t, keep);
    if k == 0 {
      assert t[1..] == s[1..];
    } else {
      assert t[1..] == s[1..][k - 1 := y];
      assert t[0] == s[0];
      CountReplace(s[1..], k - 1, y, keep);
    }
  }

  // ---------------------------------------------------------------------------
  // Array.prototype.map with a conditional body
  // ---------------------------------------------------------------------------

  /** `s.map(x => hit(x) ? f(x) : x)`. */
  function MapWhere<T>(s: seq<T>, hit: T -> bool, f: T -> T): (r: seq<T>)
    ensures |r| == |s|
    ensures forall i :: 0 <= i < |s| ==> r[i] == if hit(s[i]) then f(s[i]) else s[i]
  {
    if s == [] then [] else [if hit(s[0]) then f(s[0]) else s[0]] + MapWhere(s[1..], hit, f)
  }

  /** `s.map((x, j) => j === i ? f(x) : x)`: an index outside the list changes nothing. */
  function MapAt<T>(s: seq<T>, i: int, f: T -> T): (r: seq<T>)
    ensures 0 <= i < |s| ==> r == s[i := f(s[i])]
    ensures !(0 <= i < |s|) ==> r == s
    decreases |s|
  {
    if s == [] then []
    else [if i == 0 then f(s[0]) else s[0]] + MapAt(s[1..], i - 1, f)
  }

  /** `s.filter((_, j) => j !== i)`: an index outside the list removes nothing. */
  function RemoveAt<T>(s: seq<T>, i: int): (r: seq<T>)
    ensures 0 <= i < |s| ==> r == s[..i] + s[i + 1..]
    ensures !(0 <= i < |s|) ==> r == s
    decreases |s|
  {
    if s == [] then []
    else if i == 0 then RemoveAt(s[1..], i - 1)
    else
      assert 0 < i < |s| ==> s[..i] == [s[0]] + s[1..][..i - 1];
      [s[0]] + RemoveAt(s[1..], i - 1)
  }

  // ---------------------------------------------------------------------------
  // Array.prototype.find and reduce
  // ---------------------------------------------------------------------------

  /** `s.findIndex(p)`: the first index whose element satisfies `p`, or -1. */
  function IndexWhere<T>(s: seq<T>, p: T -> bool): (r: int)
    ensures -1 <= r < |s|
    ensures r >= 0 ==> p(s[r]) && forall j :: 0 <= j < r ==> !p(s[j])
    ensures r == -1 <==> forall j :: 0 <= j < |s| ==> !p(s[j])
  {
    if s == [] then -1
    else if p(s[0]) then 0
    else
      var k := IndexWhere(s[1..], p);
      if k < 0 then -1 else k + 1
  }

  /** `s.find(p)`: the first element satisfying `p`, if any. */
  function Find<T>(s: seq<T>, p: T -> bool): (r: Option<T>)
    ensures r.None? <==> forall x :: x in s ==> !p(x)
    ensures r.Some? ==> r.value in s && p(r.value)
    ensures r.Some? ==> exists k :: 0 <= k < |s| && s[k] == r.value && forall j :: 0 <= j < k ==> !p(s[j])
  {
    var k := IndexWhere(s, p);
    if k < 0 then None else Some(s[k])
  }

  /** `s.reduce((sum, x) => sum + f(x), 0)`. */
  function Sum<T>(s: seq<T>, f: T -> int): int {
    if s == [] then 0 else f(s[0]) + Sum(s[1..], f)
  }

  /** The sum over a two-element list. */
  lemma SumPair<T>(a: T, b: T, f: T -> int)
    ensures Sum([a, b], f) == f(a) + f(b)
  {
    assert [a, b][1..] == [b];
    assert [b][1..] == [];
    assert Sum([b], f) == f(b) + Sum([], f);
  }

  lemma {:induction false} SumAppend<T>(a: seq<T>, b: seq<T>, f: T -> int)
    ensures Sum(a + b, f) == Sum(a, f) + Sum(b, f)
    decreases |a|
  {
    if a == [] {
      assert a + b == b;
    } else {
      assert (a + b)[1..] == a[1..] + b;
      SumAppend(a[1..], b, f);
    }
  }

  /** Replacing the element at `k` moves the sum by the difference of the two terms. */
  lemma {:induction false} SumReplace<T>(s: seq<T>, k: nat, y: T, f: T -> int)
    requires k < |s|
    ensures Sum(s[k := y], f) == Sum(s, f) - f(s[k]) + f(y)
  {
    var t := s[k := y];
    assert Sum(t, f) == f(t[0]) + Sum(t[1..], f);
    if k == 0 {
      assert t[1..] == s[1..];
    } else {
      assert t[1..] == s[1..][k - 1 := y];
      SumReplace(s[1..], k - 1, y, f);
    }
  }

  /** A sum of non-negative terms is non-negative. */
  lemma {:induction false} SumNonNegative<T>(s: seq<T>, f: T -> int)
    ensures (forall x :: x in s ==> f(x) >= 0) ==> Sum(s, f) >= 0
  {
    if s != [] {
      SumNonNegative(s[1..], f);
      assert forall x :: x in s[1..] ==> x in s;
    }
  }

  /** A sum of terms each within [lo, hi] lies within [n * lo, n * hi]. */
  lemma {:induction false} SumBounds<T>(s: seq<T>, f: T -> int, lo: int, hi: int)
    requires forall x :: x in s ==> lo <= f(x) <= hi
    ensures |s| * lo <= Sum(s, f) <= |s| * hi
  {
    if s != [] {
      SumBounds(s[1..], f, lo, hi);
      assert Sum(s, f) == f(s[0]) + Sum(s[1..], f);
      assert |s| * lo == lo + |s[1..]| * lo;
      assert |s| * hi == hi + |s[1..]| * hi;
    }
  }

  // ---------------------------------------------------------------------------
  // JavaScript fallbacks and numbers
  // ---------------------------------------------------------------------------

  /**
   * `input || fallback` for a string-valued input: an absent input (`undefined`)
   * and the empty string are falsy and give the fallback.
   */
  function TextOr(input: Option<string>, fallback: string): (r: string)
    ensures r == fallback || (input == Some(r) && r != "")
    ensures fallback != "" ==> r != ""
  {
    if input.Some? && input.value != "" then input.value else fallback
  }

  /** `input || 0` for a number-valued input: `undefined` and 0 are falsy. */
  function NumberOrZero(input: Option<int>): (r: int)
    ensures input.None? ==> r == 0
    ensures input.Some? ==> r == input.value
  {
    if input.Some? && input.value != 0 then input.value else 0
  }

  function DigitChar(d: nat): (c: char)
    requires d < 10
    ensures '0' <= c <= '9'
  {
    "0123456789"[d]
  }

  /** `n.toString()` for a natural number: its decimal digits, most significant first. */
  function NatToString(n: nat): (s: string)
    ensures |s| >= 1
    ensures forall i :: 0 <= i < |s| ==> '0' <= s[i] <= '9'
    ensures |s| > 1 ==> s[0] != '0'
  {
    if n < 10 then [DigitChar(n)] else NatToString(n / 10) + [DigitChar(n % 10)]
  }

  /** The value of a string of decimal digits. */
  function DecimalValue(s: string): nat
    requires forall i :: 0 <= i < |s| ==> '0' <= s[i] <= '9'
  {
    if s == [] then 0 else 10 * DecimalValue(s[..|s| - 1]) + (s[|s| - 1] as int - '0' as int)
  }

  /** Reading the digits back gives the number: distinct counters give distinct strings. */
  lemma {:induction false} NatToStringRoundTrip(n: nat)
    ensures DecimalValue(NatToString(n)) == n
  {
    var s := NatToString(n);
    DigitValue(n % 10);
    if n >= 10 {
      NatToStringRoundTrip(n / 10);
      assert s[..|s| - 1] == NatToString(n / 10);
      assert s[|s| - 1] == DigitChar(n % 10);
      assert n == 10 * (n / 10) + n % 10;
    } else {
      assert s == [DigitChar(n)];
      assert s[..0] == [];
    }
  }

  /** A digit character stands for its own value. */
  lemma DigitValue(d: nat)
    requires d < 10
    ensures DigitChar(d) as int - '0' as int == d
  {
  }

  lemma NatToStringInjective(m: nat, n: nat)
    requires NatToString(m) == NatToString(n)
    ensures m == n
  {
    NatToStringRoundTrip(m);
    NatToStringRoundTrip(n);
  }

  /**
   * `Math.round(n / d)` for integers: the nearest integer to n/d, halves
   * rounded up (towards positive infinity), computed without division by a
   * fraction. JavaScript gives Infinity or NaN when d is 0.
   */
  function RoundDiv(n: int, d: int): (r: int)
    requires d != 0
    ensures d > 0 ==> d * (2 * r - 1) <= 2 * n < d * (2 * r + 1)
    ensures d < 0 ==> d * (2 * r - 1) >= 2 * n > d * (2 * r + 1)
  {
    if d > 0 then
      var q := (2 * n + d) / (2 * d);
      assert 2 * n + d == 2 * d * q + (2 * n + d) % (2 * d);
      q
    else
      var q := (-(2 * n + d)) / (-2 * d);
      assert -(2 * n + d) == (-2 * d) * q + (-(2 * n + d)) % (-2 * d);
      q
  }

  /** A positive factor keeps the sign of a non-negative one. */
  lemma MulNonNegative(d: int, x: int)
    requires d > 0
    ensures x >= 0 ==> d * x >= 0
  {
  }

  /** The rounded quotient is the only integer within half a unit of n/d, halves going up. */
  lemma RoundDivUnique(n: int, d: int, r: int)
    requires d > 0 && d * (2 * r - 1) <= 2 * n < d * (2 * r + 1)
    ensures RoundDiv(n, d) == r
  {
    var q := RoundDiv(n, d);
    MulNonNegative(d, q - r - 1);
    MulNonNegative(d, r - q - 1);
  }

  /** A rounded mean of values in [0, 100] is itself in [0, 100]. */
  lemma RoundDivPercent(total: int, n: int)
    requires n > 0 && 0 <= total <= 100 * n
    ensures 0 <= RoundDiv(total, n) <= 100
  {
    var r := RoundDiv(total, n);
    MulNonNegative(n, -2 * r - 2);
    MulNonNegative(n, 2 * r - 202);
  }

  /** `c / t * 100` in exact arithmetic: the percentage the dashboard's float division approximates. */
  ghost function Percent(c: int, t: int): real
    requires t != 0
  {
    (c as real) / (t as real) * 100.0
  }

  /** Comparing a percentage with a threshold is a cross-multiplication whose direction depends on the sign of `t`. */
  lemma PercentAtLeast(c: int, t: int, k: int)
    requires t != 0
    ensures Percent(c, t) >= k as real <==> (if t > 0 then 100 * c >= k * t else 100 * c <= k * t)
  {
    var q := (c as real) / (t as real);
    assert q * (t as real) == c as real;
    if t > 0 {
      assert q * 100.0 >= k as real <==> q * (t as real) * 100.0 >= (k as real) * (t as real);
    } else {
      assert q * 100.0 >= k as real <==> q * (t as real) * 100.0 <= (k as real) * (t as real);
    }
  }

  /** The same comparison at half-unit resolution: twice the percentage against `k`. */
  lemma DoublePercentAtLeast(c: int, t: int, k: int)
    requires t != 0
    ensures 2.0 * Percent(c, t) >= k as real <==> (if t > 0 then 200 * c >= k * t else 200 * c <= k * t)
  {
    var q := (c as real) / (t as real);
    assert q * (t as real) == c as real;
    if t > 0 {
      assert q * 200.0 >= k as real <==> q * (t as real) * 200.0 >= (k as real) * (t as real);
    } else {
      assert q * 200.0 >= k as real <==> q * (t as real) * 200.0 <= (k as real) * (t as real);
    }
  }

  /**
   * `Math.round(c / t * 100)`: the integer computed from `100 * c` and `t` lies
   * within half a unit of the exact percentage, halves going up.
   */
  lemma RoundedPercent(c: int, t: int)
    requires t != 0
    ensures var r := RoundDiv(100 * c, t);
            (r as real) - 0.5 <= Percent(c, t) < (r as real) + 0.5
  {
    var r := RoundDiv(100 * c, t);
    DoublePercentAtLeast(c, t, 2 * r - 1);
    DoublePercentAtLeast(c, t, 2 * r + 1);
  }
}

=== FILE: crop_tracking.dfy ===
/**
 * The crop evaluation table: one record per field visit (crop, plot, growth
 * stage, health, estimated yield, problems, actions, priority, status, next
 * visit, notes), edited, deleted and appended by row, with summary cards for
 * the number of evaluations, the optimal ones, the ones needing action and
 * the average estimated yield.
 */
module CropTracking {
  import opened Common

  datatype CropEvaluation = CropEvaluation(
    id: string,
    culture: string,
    parcelle: string,
    dateEvaluation: string,
    stadeGrowth: string,
    sante: string,
    rendementEstime: int,
    problemes: string,
    actionsRecommandees: string,
    priorite: string,
    statut: string,
    prochaineSuivi: string,
    notes: string)

  function InitialData(): seq<CropEvaluation> {
    [ CropEvaluation("1", "Canne à Sucre", "Parcelle Nord", "2024-01-15", "Tallage", "Bonne", 85,
                     "Léger stress hydrique", "Irrigation supplémentaire", "Moyenne", "En cours",
                     "2024-02-01", "Croissance normale pour la saison"),
      CropEvaluation("2", "Banane", "Parcelle Sud", "2024-01-10", "Floraison", "Excellente", 92,
                     "Aucun", "Surveillance continue", "Basse", "Optimal",
                     "2024-01-25", "Développement exceptionnel"),
      CropEvaluation("3", "Ananas", "Parcelle Est", "2024-01-08", "Maturation", "Préoccupante", 65,
                     "Attaque de cochenilles", "Traitement insecticide urgent", "Haute", "Action requise",
                     "2024-01-20", "Nécessite intervention immédiate") ]
  }

  // ---------------------------------------------------------------------------
  // Cells
  // ---------------------------------------------------------------------------

  /** The twelve editable columns (every field but the id). */
  datatype CropColumn =
    | Culture | Parcelle | DateEvaluation | StadeGrowth | Sante | RendementEstime
    | Problemes | ActionsRecommandees | Priorite | Statut | ProchaineSuivi | Notes

  /** The yield column takes a number, every other column text. */
  predicate Fits(c: CropColumn, v: Cell) {
    if c == RendementEstime then v.Number? else v.Text?
  }

  function Get(e: CropEvaluation, c: CropColumn): Cell {
    match c
    case Culture => Text(e.culture)
    case Parcelle => Text(e.parcelle)
    case DateEvaluation => Text(e.dateEvaluation)
    case StadeGrowth => Text(e.stadeGrowth)
    case Sante => Text(e.sante)
    case RendementEstime => Number(e.rendementEstime)
    case Problemes => Text(e.problemes)
    case ActionsRecommandees => Text(e.actionsRecommandees)
    case Priorite => Text(e.priorite)
    case Statut => Text(e.statut)
    case ProchaineSuivi => Text(e.prochaineSuivi)
    case Notes => Text(e.notes)
  }

  /** `{ ...item, [columnId]: value }`: that column takes the value, the id and every other column are kept. */
  function Set(e: CropEvaluation, c: CropColumn, v: Cell): (r: CropEvaluation)
    requires Fits(c, v)
    ensures Get(r, c) == v
    ensures forall d :: d != c ==> Get(r, d) == Get(e, d)
    ensures r.id == e.id
  {
    match c
    case Culture => e.(culture := v.text)
    case Parcelle => e.(parcelle := v.text)
    case DateEvaluation => e.(dateEvaluation := v.text)
    case StadeGrowth => e.(stadeGrowth := v.text)
    case Sante => e.(sante := v.text)
    case RendementEstime => e.(rendementEstime := v.number)
    case Problemes => e.(problemes := v.text)
    case ActionsRecommandees => e.(actionsRecommandees := v.text)
    case Priorite => e.(priorite := v.text)
    case Statut => e.(statut := v.text)
    case ProchaineSuivi => e.(prochaineSuivi := v.text)
    case Notes => e.(notes := v.text)
  }

  /** Each record's value is determined by its id and its twelve columns. */
  lemma ColumnsDetermineRecord(a: CropEvaluation, b: CropEvaluation)
    requires a.id == b.id
    requires forall c :: Get(a, c) == Get(b, c)
    ensures a == b
  {
    assert Get(a, Culture) == Get(b, Culture) && Get(a, Parcelle) == Get(b, Parcelle);
    assert Get(a, DateEvaluation) == Get(b, DateEvaluation) && Get(a, StadeGrowth) == Get(b, StadeGrowth);
    assert Get(a, Sante) == Get(b, Sante) && Get(a, RendementEstime) == Get(b, RendementEstime);
    assert Get(a, Problemes) == Get(b, Problemes) && Get(a, ActionsRecommandees) == Get(b, ActionsRecommandees);
    assert Get(a, Priorite) == Get(b, Priorite) && Get(a, Statut) == Get(b, Statut);
    assert Get(a, ProchaineSuivi) == Get(b, ProchaineSuivi) && Get(a, Notes) == Get(b, Notes);
  }

  function SetWith(c: CropColumn, v: Cell): CropEvaluation -> CropEvaluation
    requires Fits(c, v)
  {
    (e: CropEvaluation) => Set(e, c, v)
  }

  // ---------------------------------------------------------------------------
  // Table operations
  // ---------------------------------------------------------------------------

  /**
   * `handleUpdate`: `map` over the rows touching only index `i`; an index
   * outside the table matches no row and nothing changes.
   */
  function UpdateRow(data: seq<CropEvaluation>, i: int, c: CropColumn, v: Cell): (r: seq<CropEvaluation>)
    requires Fits(c, v)
    ensures |r| == |data|
    ensures forall j :: 0 <= j < |data| && j != i ==> r[j] == data[j]
    ensures 0 <= i < |data| ==> Get(r[i], c) == v && r[i].id == data[i].id
    ensures 0 <= i < |data| ==> forall d :: d != c ==> Get(r[i], d) == Get(data[i], d)
    ensures !(0 <= i < |data|) ==> r == data
  {
    MapAt(data, i, SetWith(c, v))
  }

  /** `handleDelete`: `filter` on the index; exactly row `i` goes, or nothing when `i` is outside the table. */
  function DeleteRow(data: seq<CropEvaluation>, i: int): (r: seq<CropEvaluation>)
    ensures 0 <= i < |data| ==> |r| == |data| - 1
    ensures 0 <= i < |data| ==> forall j :: 0 <= j < |r| ==> r[j] == if j < i then data[j] else data[j + 1]
    ensures !(0 <= i < |data|) ==> r == data
  {
    RemoveAt(data, i)
  }

  /** What the add form may hold; a missing or falsy entry falls back to a default. */
  datatype CropDraft = CropDraft(
    culture: Option<string>,
    parcelle: Option<string>,
    stadeGrowth: Option<string>,
    sante: Option<string>,
    rendementEstime: Option<int>,
    problemes: Option<string>,
    actionsRecommandees: Option<string>,
    priorite: Option<string>,
    statut: Option<string>,
    prochaineSuivi: Option<string>,
    notes: Option<string>)

  /**
   * `handleAdd`'s record: the id is the generated one, the evaluation date is
   * today's whatever the form holds, and each other field is the form's value
   * unless that is missing or falsy.
   */
  function NewEvaluation(draft: CropDraft, newId: string, today: string): (r: CropEvaluation)
    ensures r.id == newId && r.dateEvaluation == today
    ensures r.stadeGrowth == TextOr(draft.stadeGrowth, "Croissance") && r.stadeGrowth != ""
    ensures r.sante == TextOr(draft.sante, "Bonne") && r.sante != ""
    ensures r.priorite == TextOr(draft.priorite, "Moyenne") && r.priorite != ""
    ensures r.statut == TextOr(draft.statut, "En cours") && r.statut != ""
    ensures r.rendementEstime == NumberOrZero(draft.rendementEstime)
    ensures r.culture == TextOr(draft.culture, "") && r.parcelle == TextOr(draft.parcelle, "")
    ensures r.problemes == TextOr(draft.problemes, "") && r.actionsRecommandees == TextOr(draft.actionsRecommandees, "")
    ensures r.prochaineSuivi == TextOr(draft.prochaineSuivi, "") && r.notes == TextOr(draft.notes, "")
  {
    CropEvaluation(newId, TextOr(draft.culture, ""), TextOr(draft.parcelle, ""), today,
                   TextOr(draft.stadeGrowth, "Croissance"), TextOr(draft.sante, "Bonne"),
                   NumberOrZero(draft.rendementEstime), TextOr(draft.problemes, ""),
                   TextOr(draft.actionsRecommandees, ""), TextOr(draft.priorite, "Moyenne"),
                   TextOr(draft.statut, "En cours"), TextOr(draft.prochaineSuivi, ""), TextOr(draft.notes, ""))
  }

  /** An empty form gives the documented defaults. */
  lemma EmptyDraftDefaults(newId: string, today: string)
    ensures var e := NewEvaluation(CropDraft(None, None, None, None, None, None, None, None, None, None, None), newId, today);
            && e == CropEvaluation(newId, "", "", today, "Croissance", "Bonne", 0, "", "", "Moyenne", "En cours", "", "")
  {
  }

  // ---------------------------------------------------------------------------
  // Statistics
  // ---------------------------------------------------------------------------

  function HasStatut(s: string): CropEvaluation -> bool {
    (e: CropEvaluation) => e.statut == s
  }

  function Rendement(e: CropEvaluation): int {
    e.rendementEstime
  }

  datatype Statistics = Statistics(total: nat, optimal: nat, actionRequired: nat, avgRendement: Option<real>)

  /**
   * `getStatistics`: the row count, the rows with status 'Optimal' and
   * 'Action requise', and the mean estimated yield (`None` for an empty table,
   * where JavaScript divides 0 by 0).
   */
  function GetStatistics(data: seq<CropEvaluation>): (st: Statistics)
    ensures st.total == |data|
    ensures st.optimal == Count(data, HasStatut("Optimal"))
    ensures st.actionRequired == Count(data, HasStatut("Action requise"))
    ensures st.optimal + st.actionRequired <= st.total
    ensures st.avgRendement.None? <==> data == []
    ensures st.avgRendement.Some? ==> st.avgRendement.value * (|data| as real) == Sum(data, Rendement) as real
  {
    CountDisjoint(data, HasStatut("Optimal"), HasStatut("Action requise"));
    Statistics(|data|, Count(data, HasStatut("Optimal")), Count(data, HasStatut("Action requise")),
               Mean(Sum(data, Rendement), |data|))
  }

  /** The mean of a total over `n` values; `None` when there are none (JavaScript's 0 / 0). */
  function Mean(total: int, n: nat): (m: Option<real>)
    ensures m.None? <==> n == 0
    ensures m.Some? ==> m.value * (n as real) == total as real
  {
    if n == 0 then None else Some((total as real) / (n as real))
  }

  /** The average yield lies between the smallest and largest yields. */
  lemma AverageWithinBounds(data: seq<CropEvaluation>, lo: int, hi: int)
    requires data != []
    requires forall e :: e in data ==> lo <= e.rendementEstime <= hi
    ensures lo as real <= GetStatistics(data).avgRendement.value <= hi as real
  {
    SumBounds(data, Rendement, lo, hi);
    MeanBetween(Sum(data, Rendement), |data|, lo, hi);
  }

  lemma MeanBetween(total: int, n: int, lo: int, hi: int)
    requires n > 0 && n * lo <= total <= n * hi
    ensures lo as real <= (total as real) / (n as real) <= hi as real
  {
    var q := (total as real) / (n as real);
    assert q * (n as real) == total as real;
    assert (lo as real) * (n as real) <= q * (n as real);
    assert q * (n as real) <= (hi as real) * (n as real);
  }

  /** Appending a record raises the total by one and each status count by one exactly when the record has that status. */
  lemma {:induction false} StatisticsAfterAdd(data: seq<CropEvaluation>, e: CropEvaluation)
    ensures var before := GetStatistics(data);
            var after := GetStatistics(data + [e]);
            && after.total == before.total + 1
            && after.optimal == before.optimal + (if e.statut == "Optimal" then 1 else 0)
            && after.actionRequired == before.actionRequired + (if e.statut == "Action requise" then 1 else 0)
  {
    CountAppend(data, e, HasStatut("Optimal"));
    CountAppend(data, e, HasStatut("Action requise"));
  }

  /** Two rows with yields 70 and 90 average 80. */
  lemma AverageOfTwo(a: CropEvaluation, b: CropEvaluation)
    requires a.rendementEstime == 70 && b.rendementEstime == 90
    ensures GetStatistics([a, b]).avgRendement == Some(80.0)
  {
    assert [a, b][1..] == [b];
    assert [b][1..] == [];
    assert Sum([b], Rendement) == 90 + Sum([], Rendement);
    assert Sum([a, b], Rendement) == 70 + Sum([b], Rendement);
  }

  /** The seed table: three rows, one optimal, one needing action, mean yield 242/3. */
  lemma InitialStatistics()
    ensures GetStatistics(InitialData()) == Statistics(3, 1, 1, Some(242.0 / 3.0))
  {
    var d := InitialData();
    assert d[1..][1..][1..] == [];
    assert Sum(d, Rendement) == 242;
    assert Filter(d[1..][1..], HasStatut("Optimal")) == [];
    assert Filter(d[1..], HasStatut("Optimal")) == [d[1]];
    assert Filter(d, HasStatut("Optimal")) == [d[1]];
    assert Filter(d[1..], HasStatut("Action requise")) == [d[2]];
    assert Filter(d, HasStatut("Action requise")) == [d[2]];
  }

  // ---------------------------------------------------------------------------
  // The table's state
  // ---------------------------------------------------------------------------

  class CropTracker {
    var data: seq<CropEvaluation>

    constructor ()
      ensures data == InitialData()
    {
      data := InitialData();
    }

    method HandleUpdate(rowIndex: int, c: CropColumn, v: Cell)
      requires Fits(c, v)
      modifies this
      ensures data == UpdateRow(old(data), rowIndex, c, v)
    {
      data := UpdateRow(data, rowIndex, c, v);
    }

    method HandleDelete(rowIndex: int)
      modifies this
      ensures data == DeleteRow(old(data), rowIndex)
    {
      data := DeleteRow(data, rowIndex);
    }

    /** `handleAdd`, with the generated id and today's date passed in. */
    method HandleAdd(draft: CropDraft, newId: string, today: string)
      modifies this
      ensures data == old(data) + [NewEvaluation(draft, newId, today)]
    {
      data := data + [NewEvaluation(draft, newId, today)];
    }
  }
}

=== FILE: data_collection.dfy ===
/**
 * The data collection screen: a table of survey forms, a table of collected
 * entries, the saving of a form built in the form builder as a new survey
 * form, and the validation queue in which submitted entries are validated or
 * rejected by id.
 */
module DataCollection {
  import opened Common
  import FormBuilder

  // ---------------------------------------------------------------------------
  // Records
  // ---------------------------------------------------------------------------

  /** A stored form field: unlike the builder's, `required` is always present. */
  datatype FieldDef = FieldDef(
    id: string,
    fieldLabel: string,
    fieldType: FormBuilder.FieldType,
    required: bool,
    options: Option<seq<string>>,
    validation: Option<string>)

  datatype DataForm = DataForm(
    id: string,
    name: string,
    description: string,
    sector: string,
    fields: seq<FieldDef>,
    isActive: bool,
    createdAt: string,
    responses: int)

  datatype EntryStatus = Draft | Submitted | Validated | Rejected

  /** A collected entry; the answers are keyed by field label. */
  datatype DataEntry = DataEntry(
    id: string,
    formId: string,
    data: map<string, Cell>,
    submittedAt: string,
    submittedBy: string,
    status: EntryStatus,
    validationNotes: Option<string>)

  function InitialForms(): seq<DataForm> {
    [ DataForm("1", "Enquête Agriculteurs", "Collecte de données auprès des exploitants agricoles", "agriculture",
               [ FieldDef("1", "Nom de l'exploitant", FormBuilder.TextType, true, None, None),
                 FieldDef("2", "Surface exploitée (ha)", FormBuilder.NumberType, true, None, None),
                 FieldDef("3", "Type de culture", FormBuilder.SelectType, true,
                          Some(["Canne à sucre", "Banane", "Ananas", "Légumes"]), None),
                 FieldDef("4", "Utilise des pratiques bio", FormBuilder.BooleanType, false, None, None),
                 FieldDef("5", "Commentaires", FormBuilder.TextareaType, false, None, None) ],
               true, "2024-01-15", 45),
      DataForm("2", "Évaluation École", "Évaluation des conditions dans les écoles", "education",
               [ FieldDef("1", "Nom de l'école", FormBuilder.TextType, true, None, None),
                 FieldDef("2", "Nombre d'élèves", FormBuilder.NumberType, true, None, None),
                 FieldDef("3", "État des infrastructures", FormBuilder.SelectType, true,
                          Some(["Excellent", "Bon", "Moyen", "Mauvais"]), None),
                 FieldDef("4", "Accès internet", FormBuilder.BooleanType, true, None, None) ],
               true, "2024-01-20", 12) ]
  }

  function InitialEntries(): seq<DataEntry> {
    [ DataEntry("1", "1",
                map["Nom de l'exploitant" := Text("Jean Martin"), "Surface exploitée (ha)" := Number(15),
                    "Type de culture" := Text("Canne à sucre"), "Utilise des pratiques bio" := Flag(true),
                    "Commentaires" := Text("Transition vers l'agriculture biologique en cours")],
                "2024-01-16T10:30:00", "Enquêteur A", Validated, None),
      DataEntry("2", "1",
                map["Nom de l'exploitant" := Text("Marie Dubois"), "Surface exploitée (ha)" := Number(8),
                    "Type de culture" := Text("Banane"), "Utilise des pratiques bio" := Flag(false)],
                "2024-01-17T14:15:00", "Enquêteur B", Submitted, None) ]
  }

  // ---------------------------------------------------------------------------
  // Form cells
  // ---------------------------------------------------------------------------

  /** The editable columns of the forms table; the response counter and creation date are display only. */
  datatype FormColumn = FormName | Sector | IsActive

  predicate FitsForm(c: FormColumn, v: Cell) {
    match c
    case FormName | Sector => v.Text?
    case IsActive => v.Flag?
  }

  function GetForm(f: DataForm, c: FormColumn): Cell {
    match c
    case FormName => Text(f.name)
    case Sector => Text(f.sector)
    case IsActive => Flag(f.isActive)
  }

  /** `{ ...form, [columnId]: value }`. */
  function SetForm(f: DataForm, c: FormColumn, v: Cell): (r: DataForm)
    requires FitsForm(c, v)
    ensures GetForm(r, c) == v
    ensures forall d :: d != c ==> GetForm(r, d) == GetForm(f, d)
    ensures r.id == f.id && r.description == f.description && r.fields == f.fields
    ensures r.responses == f.responses && r.createdAt == f.createdAt
  {
    match c
    case FormName => f.(name := v.text)
    case Sector => f.(sector := v.text)
    case IsActive => f.(isActive := v.flag)
  }

  // ---------------------------------------------------------------------------
  // Entry cells
  // ---------------------------------------------------------------------------

  /** The editable columns of the entries table: only the status; submitter and date are display only. */
  datatype EntryColumn = StatusColumn

  function StatusName(s: EntryStatus): string {
    match s
    case Draft => "draft"
    case Submitted => "submitted"
    case Validated => "validated"
    case Rejected => "rejected"
  }

  function ParseStatus(text: string): (r: Option<EntryStatus>)
    ensures r.Some? ==> StatusName(r.value) == text
    ensures forall s :: text == StatusName(s) ==> r == Some(s)
  {
    if text == "draft" then Some(Draft)
    else if text == "submitted" then Some(Submitted)
    else if text == "validated" then Some(Validated)
    else if text == "rejected" then Some(Rejected)
    else None
  }

  /** The status column takes one of the four status names. */
  predicate FitsEntry(c: EntryColumn, v: Cell) {
    match c
    case StatusColumn => v.Text? && ParseStatus(v.text).Some?
  }

  function GetEntry(e: DataEntry, c: EntryColumn): Cell {
    match c
    case StatusColumn => Text(StatusName(e.status))
  }

  /** `{ ...entry, [columnId]: value }`: the status changes and every other member is kept. */
  function SetEntry(e: DataEntry, c: EntryColumn, v: Cell): (r: DataEntry)
    requires FitsEntry(c, v)
    ensures GetEntry(r, c) == v
    ensures r.(status := e.status) == e
  {
    match c
    case StatusColumn => e.(status := ParseStatus(v.text).value)
  }

  /**
   * The response counter is not an editable column, so no cell edit in the
   * forms table changes the response total.
   */
  lemma FormEditKeepsResponses(forms: seq<DataForm>, i: nat, c: FormColumn, v: Cell)
    requires i < |forms| && FitsForm(c, v)
    ensures TotalResponses(forms[i := SetForm(forms[i], c, v)]) == TotalResponses(forms)
  {
    SumReplace(forms, i, SetForm(forms[i], c, v), ResponsesOf);
  }

  // ---------------------------------------------------------------------------
  // Saving a built form
  // ---------------------------------------------------------------------------

  /** The builder's field as stored: `required` defaults to false; placeholder and validation are not copied. */
  function SavedField(f: FormBuilder.FormField): (r: FieldDef)
    ensures r.id == f.id && r.fieldLabel == f.fieldLabel && r.fieldType == f.fieldType && r.options == f.options
    ensures r.required <==> f.required == Some(true)
    ensures r.validation.None?
  {
    FieldDef(f.id, f.fieldLabel, f.fieldType, f.required.GetOr(false), f.options, None)
  }

  function SavedFields(fs: seq<FormBuilder.FormField>): (r: seq<FieldDef>)
    ensures |r| == |fs|
    ensures forall i :: 0 <= i < |fs| ==> r[i] == SavedField(fs[i])
  {
    if fs == [] then [] else [SavedField(fs[0])] + SavedFields(fs[1..])
  }

  /**
   * `handleFormSave`'s record: the builder's name, description and fields,
   * in the general sector, active, with no responses yet.
   */
  function SavedForm(formData: FormBuilder.FormData, newId: string, today: string): (r: DataForm)
    ensures r.id == newId && r.name == formData.name && r.description == formData.description
    ensures r.sector == "general" && r.isActive && r.responses == 0 && r.createdAt == today
    ensures |r.fields| == |formData.fields|
    ensures forall i :: 0 <= i < |r.fields| ==> r.fields[i] == SavedField(formData.fields[i])
  {
    DataForm(newId, formData.name, formData.description, "general", SavedFields(formData.fields),
             true, today, 0)
  }

  // ---------------------------------------------------------------------------
  // Validation queue and counters
  // ---------------------------------------------------------------------------

  function HasEntryStatus(s: EntryStatus): DataEntry -> bool {
    (e: DataEntry) => e.status == s
  }

  function EntryHasId(id: string): DataEntry -> bool {
    (e: DataEntry) => e.id == id
  }

  function WithStatus(s: EntryStatus): DataEntry -> DataEntry {
    (e: DataEntry) => e.(status := s)
  }

  /**
   * The validate and reject buttons: every entry with the id gets the new
   * status and keeps everything else; other entries are untouched.
   */
  function SetEntryStatus(entries: seq<DataEntry>, id: string, s: EntryStatus): (r: seq<DataEntry>)
    ensures |r| == |entries|
    ensures forall i :: 0 <= i < |entries| && entries[i].id != id ==> r[i] == entries[i]
    ensures forall i :: 0 <= i < |entries| && entries[i].id == id ==> r[i] == entries[i].(status := s)
  {
    MapWhere(entries, EntryHasId(id), WithStatus(s))
  }

  /** The validation queue: exactly the submitted entries, in table order. */
  function PendingEntries(entries: seq<DataEntry>): (r: seq<DataEntry>)
    ensures forall e :: e in r <==> e in entries && e.status == Submitted
    ensures forall e :: multiset(r)[e] == if e.status == Submitted then multiset(entries)[e] else 0
    ensures |r| == Count(entries, HasEntryStatus(Submitted))
    ensures IsSubseq(r, entries)
  {
    Filter(entries, HasEntryStatus(Submitted))
  }

  /** The "pending" card counts the queue; the "validated" card the validated entries. */
  function PendingCount(entries: seq<DataEntry>): (n: nat)
    ensures n == |PendingEntries(entries)| && n <= |entries|
  {
    Count(entries, HasEntryStatus(Submitted))
  }

  function ValidatedCount(entries: seq<DataEntry>): (n: nat)
    ensures n <= |entries| - PendingCount(entries)
  {
    CountDisjoint(entries, HasEntryStatus(Submitted), HasEntryStatus(Validated));
    Count(entries, HasEntryStatus(Validated))
  }

  function ResponsesOf(f: DataForm): int {
    f.responses
  }

  /** The "responses" card: the sum of the forms' response counters. */
  function TotalResponses(forms: seq<DataForm>): (n: int)
    ensures (forall f :: f in forms ==> f.responses >= 0) ==> n >= 0
  {
    SumNonNegative(forms, ResponsesOf);
    Sum(forms, ResponsesOf)
  }

  ghost predicate UniqueIds(entries: seq<DataEntry>) {
    forall i, j :: 0 <= i < j < |entries| ==> entries[i].id != entries[j].id
  }

  /** With unique ids, setting the status of entry `k` by id changes that entry only. */
  lemma {:induction false} SetStatusOfUnique(entries: seq<DataEntry>, k: int, s: EntryStatus)
    requires UniqueIds(entries) && 0 <= k < |entries|
    ensures SetEntryStatus(entries, entries[k].id, s) == entries[k := entries[k].(status := s)]
  {
    var r := SetEntryStatus(entries, entries[k].id, s);
    forall i | 0 <= i < |entries|
      ensures r[i] == entries[k := entries[k].(status := s)][i]
    {
      if i < k {
        assert entries[i].id != entries[k].id;
      } else if i > k {
        assert entries[k].id != entries[i].id;
      }
    }
  }

  /** With unique ids, validating a submitted entry moves it from the pending count to the validated count. */
  lemma ValidateMovesOne(entries: seq<DataEntry>, k: int)
    requires UniqueIds(entries) && 0 <= k < |entries| && entries[k].status == Submitted
    ensures var after := SetEntryStatus(entries, entries[k].id, Validated);
            PendingCount(after) == PendingCount(entries) - 1
            && ValidatedCount(after) == ValidatedCount(entries) + 1
  {
    SetStatusOfUnique(entries, k, Validated);
    var y := entries[k].(status := Validated);
    CountReplace(entries, k, y, HasEntryStatus(Submitted));
    CountReplace(entries, k, y, HasEntryStatus(Validated));
  }

  /** With unique ids, rejecting a submitted entry removes it from the queue and leaves the validated count alone. */
  lemma RejectLeavesValidated(entries: seq<DataEntry>, k: int)
    requires UniqueIds(entries) && 0 <= k < |entries| && entries[k].status == Submitted
    ensures var after := SetEntryStatus(entries, entries[k].id, Rejected);
            PendingCount(after) == PendingCount(entries) - 1
            && ValidatedCount(after) == ValidatedCount(entries)
            && entries[k].(status := Rejected) !in PendingEntries(after)
  {
    SetStatusOfUnique(entries, k, Rejected);
    var y := entries[k].(status := Rejected);
    CountReplace(entries, k, y, HasEntryStatus(Submitted));
    CountReplace(entries, k, y, HasEntryStatus(Validated));
  }

  /** Saving a new form leaves the response total unchanged and adds one form. */
  lemma FormSaveKeepsResponses(forms: seq<DataForm>, formData: FormBuilder.FormData, newId: string, today: string)
    ensures TotalResponses(forms + [SavedForm(formData, newId, today)]) == TotalResponses(forms)
  {
    var f := SavedForm(formData, newId, today);
    SumAppend(forms, [f], ResponsesOf);
    assert [f][1..] == [];
  }

  /**
   * A form accepted by the builder's save guard becomes a stored form with a
   * non-blank name and as many fields as were built, at least one.
   */
  lemma BuilderSaveStoresForm(name: string, description: string, fields: seq<FormBuilder.FormField>, newId: string, today: string)
    requires FormBuilder.Save(name, description, fields).Saved?
    ensures var f := SavedForm(FormBuilder.Save(name, description, fields).form, newId, today);
            f.name == name && FormBuilder.Trim(f.name) != "" && |f.fields| == |fields| >= 1
  {
  }

  /** The seed data: 57 responses, one entry pending and one validated. */
  lemma InitialCounters()
    ensures TotalResponses(InitialForms()) == 57
    ensures PendingCount(InitialEntries()) == 1 && ValidatedCount(InitialEntries()) == 1
  {
    var fs := InitialForms();
    assert fs[1..][1..] == [];
    var es := InitialEntries();
    assert es[1..][1..] == [];
    assert Filter(es, HasEntryStatus(Submitted)) == [es[1]];
    assert Filter(es, HasEntryStatus(Validated)) == [es[0]];
  }

  // ---------------------------------------------------------------------------
  // The screen's state
  // ---------------------------------------------------------------------------

  class DataCollectionState {
    var forms: seq<DataForm>
    var dataEntries: seq<DataEntry>
    var selectedForm: Option<DataForm>
    var showFormBuilder: bool

    constructor ()
      ensures forms == InitialForms() && dataEntries == InitialEntries()
      ensures selectedForm == None && !showFormBuilder
    {
      forms := InitialForms();
      dataEntries := InitialEntries();
      selectedForm := None;
      showFormBuilder := false;
    }

    /** `handleFormUpdate`: a copy of the forms with row `rowIndex` replaced. */
    method HandleFormUpdate(rowIndex: int, c: FormColumn, v: Cell)
      requires 0 <= rowIndex < |forms|
      requires FitsForm(c, v)
      modifies this
      ensures forms == old(forms)[rowIndex := SetForm(old(forms)[rowIndex], c, v)]
      ensures dataEntries == old(dataEntries) && selectedForm == old(selectedForm)
      ensures showFormBuilder == old(showFormBuilder)
    {
      var updatedForms := forms;
      updatedForms := updatedForms[rowIndex := SetForm(updatedForms[rowIndex], c, v)];
      forms := updatedForms;
    }

    /** `handleEntryUpdate`: a copy of the entries with row `rowIndex` replaced. */
    method HandleEntryUpdate(rowIndex: int, c: EntryColumn, v: Cell)
      requires 0 <= rowIndex < |dataEntries|
      requires FitsEntry(c, v)
      modifies this
      ensures dataEntries == old(dataEntries)[rowIndex := SetEntry(old(dataEntries)[rowIndex], c, v)]
      ensures forms == old(forms) && selectedForm == old(selectedForm)
      ensures showFormBuilder == old(showFormBuilder)
    {
      var updatedEntries := dataEntries;
      updatedEntries := updatedEntries[rowIndex := SetEntry(updatedEntries[rowIndex], c, v)];
      dataEntries := updatedEntries;
    }

    /** `handleFormSave`, with the random id and today's date passed in; the builder dialog closes. */
    method HandleFormSave(formData: FormBuilder.FormData, newId: string, today: string)
      modifies this
      ensures forms == old(forms) + [SavedForm(formData, newId, today)]
      ensures !showFormBuilder
      ensures dataEntries == old(dataEntries) && selectedForm == old(selectedForm)
    {
      forms := forms + [SavedForm(formData, newId, today)];
      showFormBuilder := false;
    }

    method SetShowFormBuilder(open: bool)
      modifies this
      ensures showFormBuilder == open
      ensures forms == old(forms) && dataEntries == old(dataEntries) && selectedForm == old(selectedForm)
    {
      showFormBuilder := open;
    }

    /** The "preview" row action selects the form in that row. */
    method Preview(rowIndex: int)
      requires 0 <= rowIndex < |forms|
      modifies this
      ensures selectedForm == Some(old(forms)[rowIndex])
      ensures forms == old(forms) && dataEntries == old(dataEntries) && showFormBuilder == old(showFormBuilder)
    {
      selectedForm := Some(forms[rowIndex]);
    }

    /** The "validate" button of a queued entry. */
    method Validate(id: string)
      modifies this
      ensures dataEntries == SetEntryStatus(old(dataEntries), id, Validated)
      ensures forms == old(forms) && selectedForm == old(selectedForm) && showFormBuilder == old(showFormBuilder)
    {
      dataEntries := SetEntryStatus(dataEntries, id, Validated);
    }

    /** The "reject" button of a queued entry. */
    method Reject(id: string)
      modifies this
      ensures dataEntries == SetEntryStatus(old(dataEntries), id, Rejected)
      ensures forms == old(forms) && selectedForm == old(selectedForm) && showFormBuilder == old(showFormBuilder)
    {
      dataEntries := SetEntryStatus(dataEntries, id, Rejected);
    }
  }
}

=== FILE: form_builder.dfy ===
/**
 * The form schema builder: an ordered list of field definitions that the
 * user extends, patches and prunes, a save action guarded by two checks
 * (a non-blank name, at least one field), and the textarea through which a
 * select field's options are edited one per line.
 */
module FormBuilder {
  import opened Common

  datatype FieldType = TextType | NumberType | DateType | BooleanType | SelectType | TextareaType

  function TypeName(t: FieldType): string {
    match t
    case TextType => "text"
    case NumberType => "number"
    case DateType => "date"
    case BooleanType => "boolean"
    case SelectType => "select"
    case TextareaType => "textarea"
  }

  /** A field definition; the TypeScript optional members are `Option`s. */
  datatype FormField = FormField(
    id: string,
    fieldLabel: string,
    fieldType: FieldType,
    required: Option<bool>,
    options: Option<seq<string>>,
    placeholder: Option<string>,
    validation: Option<string>)

  /** `Partial<FormField>`. */
  datatype FieldPatch = FieldPatch(
    id: Option<string>,
    fieldLabel: Option<string>,
    fieldType: Option<FieldType>,
    required: Option<bool>,
    options: Option<seq<string>>,
    placeholder: Option<string>,
    validation: Option<string>)

  const NoFieldChange := FieldPatch(None, None, None, None, None, None, None)

  /** `{ ...field, ...u }`. */
  function MergeField(f: FormField, u: FieldPatch): (r: FormField)
    ensures u == NoFieldChange ==> r == f
  {
    FormField(u.id.GetOr(f.id), u.fieldLabel.GetOr(f.fieldLabel), u.fieldType.GetOr(f.fieldType),
              Or(u.required, f.required), Or(u.options, f.options),
              Or(u.placeholder, f.placeholder), Or(u.validation, f.validation))
  }

  /** `{ ...u, ...v }` on field patches: the patch that applying `u` and then `v` amounts to. */
  function CombineFields(u: FieldPatch, v: FieldPatch): FieldPatch {
    FieldPatch(Or(v.id, u.id), Or(v.fieldLabel, u.fieldLabel), Or(v.fieldType, u.fieldType),
               Or(v.required, u.required), Or(v.options, u.options),
               Or(v.placeholder, u.placeholder), Or(v.validation, u.validation))
  }

  /** The patch that carries every member of `g`; an optional member `g` lacks is not in the patch. */
  function OverwriteField(g: FormField): FieldPatch {
    FieldPatch(Some(g.id), Some(g.fieldLabel), Some(g.fieldType),
               g.required, g.options, g.placeholder, g.validation)
  }

  /**
   * The laws of the spread merge on fields: a patch applied twice is applied
   * once, two patches in a row are their combination, and a patch naming every
   * member yields exactly those members. A patch cannot remove an optional
   * member, so overwriting yields `g` when `g` has all of them.
   */
  lemma FieldMergeLaws(f: FormField, u: FieldPatch, v: FieldPatch, g: FormField)
    ensures MergeField(MergeField(f, u), u) == MergeField(f, u)
    ensures MergeField(MergeField(f, u), v) == MergeField(f, CombineFields(u, v))
    ensures g.required.Some? && g.options.Some? && g.placeholder.Some? && g.validation.Some? ==>
              MergeField(f, OverwriteField(g)) == g
  {
  }

  function FieldHasId(id: string): FormField -> bool {
    (f: FormField) => f.id == id
  }

  function FieldLacksId(id: string): FormField -> bool {
    (f: FormField) => f.id != id
  }

  function MergeFieldWith(u: FieldPatch): FormField -> FormField {
    (f: FormField) => MergeField(f, u)
  }

  // ---------------------------------------------------------------------------
  // Field list operations
  // ---------------------------------------------------------------------------

  const DefaultOptions: seq<string> := ["Option 1", "Option 2"]

  /** `addField`: the new field's defaults; only a select field gets options. */
  function NewField(t: FieldType, newId: string): (f: FormField)
    ensures f.id == newId && f.fieldType == t
    ensures f.fieldLabel == "Nouveau champ " + TypeName(t)
    ensures f.required == Some(false) && f.placeholder == Some("")
    ensures f.options.Some? <==> t == SelectType
    ensures f.options.Some? ==> f.options.value == DefaultOptions
  {
    FormField(newId, "Nouveau champ " + TypeName(t), t, Some(false),
              if t == SelectType then Some(DefaultOptions) else None, Some(""), None)
  }

  /** `fields.map(field => field.id === id ? { ...field, ...u } : field)`. */
  function UpdateFields(fs: seq<FormField>, id: string, u: FieldPatch): (r: seq<FormField>)
    ensures |r| == |fs|
    ensures forall i :: 0 <= i < |fs| && fs[i].id != id ==> r[i] == fs[i]
    ensures forall i :: 0 <= i < |fs| && fs[i].id == id ==> r[i] == MergeField(fs[i], u)
  {
    MapWhere(fs, FieldHasId(id), MergeFieldWith(u))
  }

  /** `fields.filter(field => field.id !== id)`. */
  function RemoveFields(fs: seq<FormField>, id: string): (r: seq<FormField>)
    ensures forall f :: f in r <==> f in fs && f.id != id
    ensures IsSubseq(r, fs)
    ensures |r| == |fs| - Count(fs, FieldHasId(id))
  {
    CountComplement(fs, FieldLacksId(id), FieldHasId(id));
    Filter(fs, FieldLacksId(id))
  }

  // ---------------------------------------------------------------------------
  // String.prototype.trim
  // ---------------------------------------------------------------------------

  /** The white space and line terminators that `trim` strips. */
  predicate IsWhitespace(c: char) {
    || c == ' ' || c == '\t' || c == '\n' || c == '\r' || c == '\U{000B}' || c == '\U{000C}'
    || c == '\U{00A0}' || c == '\U{FEFF}' || c == '\U{1680}' || ('\U{2000}' <= c <= '\U{200A}')
    || c == '\U{2028}' || c == '\U{2029}' || c == '\U{202F}' || c == '\U{205F}' || c == '\U{3000}'
  }

  function LeadingWhitespace(s: string): (k: nat)
    ensures k <= |s|
    ensures forall i :: 0 <= i < k ==> IsWhitespace(s[i])
    ensures k < |s| ==> !IsWhitespace(s[k])
  {
    if s == [] || !IsWhitespace(s[0]) then 0 else 1 + LeadingWhitespace(s[1..])
  }

  function TrailingWhitespace(s: string): (k: nat)
    ensures k <= |s|
    ensures forall i :: |s| - k <= i < |s| ==> IsWhitespace(s[i])
    ensures k < |s| ==> !IsWhitespace(s[|s| - 1 - k])
  {
    if s == [] || !IsWhitespace(s[|s| - 1]) then 0 else 1 + TrailingWhitespace(s[..|s| - 1])
  }

  /** `s.trim()`: the slice of `s` left after stripping white space at both ends. */
  function Trim(s: string): (r: string)
    ensures r == "" <==> forall i :: 0 <= i < |s| ==> IsWhitespace(s[i])
    ensures r != "" ==> !IsWhitespace(r[0]) && !IsWhitespace(r[|r| - 1])
    ensures LeadingWhitespace(s) + |r| <= |s| && r == s[LeadingWhitespace(s)..][..|r|]
    ensures forall j :: LeadingWhitespace(s) + |r| <= j < |s| ==> IsWhitespace(s[j])
  {
    var k := LeadingWhitespace(s);
    var t := s[k..];
    var r := t[..|t| - TrailingWhitespace(t)];
    assert r == s[k..][..|r|];
    assert forall j :: k + |r| <= j < |s| ==> s[j] == t[j - k];
    r
  }

  // ---------------------------------------------------------------------------
  // Saving
  // ---------------------------------------------------------------------------

  datatype FormData = FormData(name: string, description: string, fields: seq<FormField>)

  datatype SaveError = NameRequired | NoFields

  /** `Saved` is the call of `onSave`; `Rejected` is the error toast. */
  datatype SaveOutcome = Saved(form: FormData) | Rejected(error: SaveError)

  /**
   * `handleSave`: a blank name is rejected first, then an empty field list;
   * otherwise exactly the current name, description and fields are emitted.
   */
  function Save(name: string, description: string, fields: seq<FormField>): (r: SaveOutcome)
    ensures r == Rejected(NameRequired) <==> forall i :: 0 <= i < |name| ==> IsWhitespace(name[i])
    ensures r == Rejected(NoFields) <==> Trim(name) != "" && fields == []
    ensures r.Saved? ==> r.form == FormData(name, description, fields)
  {
    if Trim(name) == "" then Rejected(NameRequired)
    else if |fields| == 0 then Rejected(NoFields)
    else Saved(FormData(name, description, fields))
  }

  /** The save button: `disabled={!formName.trim() || fields.length === 0}`. */
  function SaveEnabled(name: string, fields: seq<FormField>): (b: bool)
    ensures b <==> (exists i :: 0 <= i < |name| && !IsWhitespace(name[i])) && fields != []
  {
    !(Trim(name) == "" || |fields| == 0)
  }

  /** The button is enabled exactly when saving would succeed. */
  lemma SaveButtonMatchesGuards(name: string, description: string, fields: seq<FormField>)
    ensures SaveEnabled(name, fields) <==> Save(name, description, fields).Saved?
  {
  }

  /** An empty name is always rejected; "Survey" with one field is saved with that one field. */
  lemma SaveExamples(description: string, fields: seq<FormField>, t: FieldType, id: string)
    ensures Save("", description, fields) == Rejected(NameRequired)
    ensures Save("  ", description, fields) == Rejected(NameRequired)
    ensures var r := Save("Survey", description, [NewField(t, id)]);
            r.Saved? && |r.form.fields| == 1
  {
    assert !IsWhitespace('S');
    assert "Survey"[0] == 'S';
  }

  // ---------------------------------------------------------------------------
  // The options textarea: join on newline, split on newline, drop empty lines
  // ---------------------------------------------------------------------------

  /** `xs.join('\n')`. */
  function JoinLines(xs: seq<string>): string {
    if |xs| == 0 then "" else if |xs| == 1 then xs[0] else xs[0] + "\n" + JoinLines(xs[1..])
  }

  /** `s.split('\n')`: at least one piece, none containing a newline. */
  function SplitLines(s: string): (r: seq<string>)
    ensures |r| >= 1
    ensures forall i :: 0 <= i < |r| ==> '\n' !in r[i]
  {
    if s == [] then [""]
    else
      var rest := SplitLines(s[1..]);
      if s[0] == '\n' then [""] + rest else [[s[0]] + rest[0]] + rest[1..]
  }

  function NonEmpty(): string -> bool {
    (s: string) => s != ""
  }

  /** The textarea's value: `field.options?.join('\n') || ''`. */
  function OptionsText(options: Option<seq<string>>): string {
    match options
    case None => ""
    case Some(xs) => JoinLines(xs)
  }

  /** What an edit of the textarea stores: `text.split('\n').filter(Boolean)`. */
  function ParseOptions(text: string): (r: seq<string>)
    ensures forall o :: o in r ==> o != "" && '\n' !in o
  {
    Filter(SplitLines(text), NonEmpty())
  }

  /** Splitting and re-joining gives back the text, for every text. */
  lemma {:induction false} JoinSplit(s: string)
    ensures JoinLines(SplitLines(s)) == s
  {
    if s != [] {
      var rest := SplitLines(s[1..]);
      JoinSplit(s[1..]);
      if s[0] == '\n' {
        assert ([""] + rest)[1..] == rest;
      } else if |rest| > 1 {
        var r := [[s[0]] + rest[0]] + rest[1..];
        assert r[1..] == rest[1..];
        assert JoinLines(rest) == rest[0] + "\n" + JoinLines(rest[1..]);
      }
    }
  }

  lemma {:induction false} SplitWithoutNewline(w: string)
    requires '\n' !in w
    ensures SplitLines(w) == [w]
  {
    if w != [] {
      SplitWithoutNewline(w[1..]);
      assert [w[0]] + w[1..] == w;
    }
  }

  lemma {:induction false} SplitAfterLine(w: string, t: string)
    requires '\n' !in w
    ensures SplitLines(w + "\n" + t) == [w] + SplitLines(t)
  {
    if w == [] {
      assert w + "\n" + t == "\n" + t;
      assert ("\n" + t)[1..] == t;
    } else {
      assert (w + "\n" + t)[1..] == w[1..] + "\n" + t;
      SplitAfterLine(w[1..], t);
      assert [w[0]] + w[1..] == w;
    }
  }

  /** Joining lines that hold no newline and splitting again gives the lines back. */
  lemma {:induction false} SplitJoin(xs: seq<string>)
    requires |xs| >= 1
    requires forall i :: 0 <= i < |xs| ==> '\n' !in xs[i]
    ensures SplitLines(JoinLines(xs)) == xs
  {
    if |xs| == 1 {
      SplitWithoutNewline(xs[0]);
    } else {
      SplitJoin(xs[1..]);
      SplitAfterLine(xs[0], JoinLines(xs[1..]));
    }
  }

  /**
   * The options editor round-trips: shown in the textarea and read back, a
   * list of non-empty options without newlines is unchanged.
   */
  lemma OptionsRoundTrip(opts: seq<string>)
    requires forall i :: 0 <= i < |opts| ==> opts[i] != "" && '\n' !in opts[i]
    ensures ParseOptions(OptionsText(Some(opts))) == opts
  {
    if opts == [] {
      assert SplitLines("") == [""];
    } else {
      SplitJoin(opts);
      FilterAll(opts, NonEmpty());
    }
  }

  /** Reading the textarea twice changes nothing more: parsing is idempotent through the display. */
  lemma ParseOptionsStable(text: string)
    ensures ParseOptions(OptionsText(Some(ParseOptions(text)))) == ParseOptions(text)
  {
    var r := ParseOptions(text);
    assert forall i :: 0 <= i < |r| ==> r[i] in r;
    OptionsRoundTrip(r);
  }

  // ---------------------------------------------------------------------------
  // The builder's state
  // ---------------------------------------------------------------------------

  class FormBuilderState {
    var formName: string
    var formDescription: string
    var fields: seq<FormField>

    constructor ()
      ensures formName == "" && formDescription == "" && fields == []
    {
      formName, formDescription, fields := "", "", [];
    }

    method SetFormName(name: string)
      modifies this
      ensures formName == name
      ensures formDescription == old(formDescription) && fields == old(fields)
    {
      formName := name;
    }

    method SetFormDescription(description: string)
      modifies this
      ensures formDescription == description
      ensures formName == old(formName) && fields == old(fields)
    {
      formDescription := description;
    }

    /** Appends a default field of type `t` under a generated id (passed in). */
    method AddField(t: FieldType, newId: string)
      modifies this
      ensures fields == old(fields) + [NewField(t, newId)]
      ensures formName == old(formName) && formDescription == old(formDescription)
    {
      fields := fields + [NewField(t, newId)];
    }

    method UpdateField(id: string, u: FieldPatch)
      modifies this
      ensures fields == UpdateFields(old(fields), id, u)
      ensures formName == old(formName) && formDescription == old(formDescription)
    {
      fields := UpdateFields(fields, id, u);
    }

    method RemoveField(id: string)
      modifies this
      ensures fields == RemoveFields(old(fields), id)
      ensures formName == old(formName) && formDescription == old(formDescription)
    {
      fields := RemoveFields(fields, id);
    }

    /** A change of a select field's options textarea. */
    method EditOptions(id: string, text: string)
      modifies this
      ensures fields == UpdateFields(old(fields), id, NoFieldChange.(options := Some(ParseOptions(text))))
      ensures formName == old(formName) && formDescription == old(formDescription)
    {
      UpdateField(id, NoFieldChange.(options := Some(ParseOptions(text))));
    }

    /** `handleSave`; the builder's own state is not changed. */
    method HandleSave() returns (outcome: SaveOutcome)
      ensures outcome == Save(formName, formDescription, fields)
      ensures outcome.Saved? <==> SaveEnabled(formName, fields)
    {
      if Trim(formName) == "" {
        return Rejected(NameRequired);
      }
      if |fields| == 0 {
        return Rejected(NoFields);
      }
      outcome := Saved(FormData(formName, formDescription, fields));
    }
  }
}

=== FILE: monitoring_evaluation.dfy ===
/**
 * The monitoring and evaluation board: a table of indicators (baseline,
 * target, current value and a status derived from the ratio current/target)
 * and a table of activities (planned and actual quantities, a rounded progress
 * percentage and a status derived from it). Cells are edited at a row index;
 * editing a driving number recomputes the derived columns.
 */
module MonitoringEvaluation {
  import opened Common

  // ---------------------------------------------------------------------------
  // Records
  // ---------------------------------------------------------------------------

  datatype IndicatorStatus = OnTrack | AtRisk | OffTrack
  datatype Trend = Up | Down | Stable

  datatype IndicatorData = IndicatorData(
    id: string,
    name: string,
    category: string,
    baseline: int,
    target: int,
    current: int,
    unit: string,
    dataSource: string,
    frequency: string,
    lastUpdate: string,
    status: IndicatorStatus,
    trend: Trend)

  datatype ActivityType = Input | Output | Outcome | Impact
  datatype ActivityStatus = Completed | InProgress | Delayed | NotStarted

  datatype ActivityData = ActivityData(
    id: string,
    name: string,
    activityType: ActivityType,
    planned: int,
    actual: int,
    unit: string,
    progress: int,
    deadline: string,
    responsible: string,
    status: ActivityStatus)

  // ---------------------------------------------------------------------------
  // Status rules
  // ---------------------------------------------------------------------------

  /**
   * `current / target * 100 >= k` for a positive threshold `k`, including the
   * float behaviour at `target == 0`: a positive current gives Infinity (above
   * every threshold), zero gives NaN and a negative current -Infinity (below).
   */
  predicate ReachesPercent(current: int, target: int, k: int) {
    if target > 0 then 100 * current >= k * target
    else if target < 0 then 100 * current <= k * target
    else current > 0
  }

  lemma IndicatorThresholds(current: int, target: int)
    ensures target != 0 ==> (ReachesPercent(current, target, 80) <==> Percent(current, target) >= 80.0)
    ensures target != 0 ==> (ReachesPercent(current, target, 60) <==> Percent(current, target) >= 60.0)
  {
    if target != 0 {
      PercentAtLeast(current, target, 80);
      PercentAtLeast(current, target, 60);
    }
  }

  /**
   * The indicator status rule: on track from 80% of target, at risk from 60%,
   * off track below; with a zero target only a positive current is on track.
   */
  function IndicatorStatusFor(current: int, target: int): (r: IndicatorStatus)
    ensures target != 0 ==> (r == OnTrack <==> Percent(current, target) >= 80.0)
    ensures target != 0 ==> (r == AtRisk <==> 60.0 <= Percent(current, target) < 80.0)
    ensures target == 0 ==> (r == OnTrack <==> current > 0) && r != AtRisk
  {
    IndicatorThresholds(current, target);
    if ReachesPercent(current, target, 80) then OnTrack
    else if ReachesPercent(current, target, 60) then AtRisk
    else OffTrack
  }

  /** Statuses ordered from worst to best. */
  function IndicatorRank(s: IndicatorStatus): nat {
    match s
    case OffTrack => 0
    case AtRisk => 1
    case OnTrack => 2
  }

  /** A higher ratio of current to target never gives a worse status. */
  lemma IndicatorStatusMonotone(c1: int, t1: int, c2: int, t2: int)
    requires t1 != 0 && t2 != 0
    requires Percent(c1, t1) <= Percent(c2, t2)
    ensures IndicatorRank(IndicatorStatusFor(c1, t1)) <= IndicatorRank(IndicatorStatusFor(c2, t2))
  {
  }

  /**
   * `Math.round(actual / planned * 100)`: the stored activity progress, within
   * half a point of the exact percentage.
   */
  function ActivityProgress(actual: int, planned: int): (r: int)
    requires planned != 0
    ensures (r as real) - 0.5 <= Percent(actual, planned) < (r as real) + 0.5
  {
    RoundedPercent(actual, planned);
    RoundDiv(100 * actual, planned)
  }

  /** The activity status rule on the rounded progress: 100, 50 and "above 0". */
  function ActivityStatusFor(progress: int): (s: ActivityStatus)
    ensures s == Completed <==> progress >= 100
    ensures s == InProgress <==> 50 <= progress < 100
    ensures s == Delayed <==> 0 < progress < 50
    ensures s == NotStarted <==> progress <= 0
  {
    if progress >= 100 then Completed
    else if progress >= 50 then InProgress
    else if progress > 0 then Delayed
    else NotStarted
  }

  function ActivityRank(s: ActivityStatus): nat {
    match s
    case NotStarted => 0
    case Delayed => 1
    case InProgress => 2
    case Completed => 3
  }

  /** More progress never gives a worse activity status. */
  lemma ActivityStatusMonotone(p1: int, p2: int)
    requires p1 <= p2
    ensures ActivityRank(ActivityStatusFor(p1)) <= ActivityRank(ActivityStatusFor(p2))
  {
  }

  /**
   * Because progress is rounded before the comparison, an activity counts as
   * completed from 99.5% of its plan on (for a positive plan).
   */
  lemma CompletedFromNinetyNineAndAHalf(actual: int, planned: int)
    requires planned > 0
    ensures ActivityStatusFor(ActivityProgress(actual, planned)) == Completed <==> 200 * actual >= 199 * planned
  {
    var r := ActivityProgress(actual, planned);
    MulNonNegative(planned, r - 100);
    MulNonNegative(planned, 99 - r);
  }

  /** Nothing done (with a positive plan) is "not started"; the plan met is "completed". */
  lemma ActivityStatusEnds(actual: int, planned: int)
    requires planned > 0
    ensures actual == 0 ==> ActivityStatusFor(ActivityProgress(actual, planned)) == NotStarted
    ensures actual >= planned ==> ActivityStatusFor(ActivityProgress(actual, planned)) == Completed
  {
    var r := ActivityProgress(actual, planned);
    MulNonNegative(planned, r);
    MulNonNegative(planned, -r);
    MulNonNegative(planned, actual - planned);
    CompletedFromNinetyNineAndAHalf(actual, planned);
  }

  // ---------------------------------------------------------------------------
  // Indicator cells
  // ---------------------------------------------------------------------------

  /** The editable indicator columns; progress and status are derived. */
  datatype IndicatorColumn = IndicatorName | Category | Baseline | Target | Current | IndicatorUnit

  /** Baseline, target and current drive the status. */
  predicate DrivesStatus(c: IndicatorColumn) {
    c == Baseline || c == Target || c == Current
  }

  predicate FitsIndicator(c: IndicatorColumn, v: Cell) {
    match c
    case IndicatorName | Category | IndicatorUnit => v.Text?
    case Baseline | Target | Current => v.Number?
  }

  function GetIndicator(row: IndicatorData, c: IndicatorColumn): Cell {
    match c
    case IndicatorName => Text(row.name)
    case Category => Text(row.category)
    case Baseline => Number(row.baseline)
    case Target => Number(row.target)
    case Current => Number(row.current)
    case IndicatorUnit => Text(row.unit)
  }

  /** `{ ...row, [columnId]: value }`: that column is set, every other one is kept. */
  function SetIndicator(row: IndicatorData, c: IndicatorColumn, v: Cell): (r: IndicatorData)
    requires FitsIndicator(c, v)
    ensures GetIndicator(r, c) == v
    ensures forall d :: d != c ==> GetIndicator(r, d) == GetIndicator(row, d)
    ensures r.id == row.id && r.dataSource == row.dataSource && r.frequency == row.frequency
    ensures r.lastUpdate == row.lastUpdate && r.status == row.status && r.trend == row.trend
  {
    match c
    case IndicatorName => row.(name := v.text)
    case Category => row.(category := v.text)
    case Baseline => row.(baseline := v.number)
    case Target => row.(target := v.number)
    case Current => row.(current := v.number)
    case IndicatorUnit => row.(unit := v.text)
  }

  /**
   * The row `handleIndicatorUpdate` stores: the cell is set, and when a driving
   * number changed the status is recomputed from the updated row; otherwise the
   * status is kept as it was, even if it disagrees with the rule.
   */
  function EditIndicator(row: IndicatorData, c: IndicatorColumn, v: Cell): (r: IndicatorData)
    requires FitsIndicator(c, v)
    ensures GetIndicator(r, c) == v
    ensures forall d :: d != c ==> GetIndicator(r, d) == GetIndicator(row, d)
    ensures r.id == row.id && r.dataSource == row.dataSource && r.frequency == row.frequency
    ensures r.lastUpdate == row.lastUpdate && r.trend == row.trend
    ensures DrivesStatus(c) ==> r.status == IndicatorStatusFor(r.current, r.target)
    ensures !DrivesStatus(c) ==> r.status == row.status
  {
    var edited := SetIndicator(row, c, v);
    if DrivesStatus(c) then edited.(status := IndicatorStatusFor(edited.current, edited.target))
    else edited
  }

  // ---------------------------------------------------------------------------
  // Activity cells
  // ---------------------------------------------------------------------------

  datatype ActivityColumn = ActivityName | TypeColumn | Planned | Actual | ActivityUnit | Deadline | Responsible

  /** Planned and actual drive progress and status. */
  predicate DrivesProgress(c: ActivityColumn) {
    c == Planned || c == Actual
  }

  function TypeName(t: ActivityType): string {
    match t
    case Input => "input"
    case Output => "output"
    case Outcome => "outcome"
    case Impact => "impact"
  }

  function ParseType(text: string): (r: Option<ActivityType>)
    ensures r.Some? ==> TypeName(r.value) == text
    ensures forall t :: text == TypeName(t) ==> r == Some(t)
  {
    if text == "input" then Some(Input)
    else if text == "output" then Some(Output)
    else if text == "outcome" then Some(Outcome)
    else if text == "impact" then Some(Impact)
    else None
  }

  /** Text columns take text; the type column one of its four options; planned and actual a number. */
  predicate FitsActivity(c: ActivityColumn, v: Cell) {
    match c
    case ActivityName | ActivityUnit | Deadline | Responsible => v.Text?
    case TypeColumn => v.Text? && ParseType(v.text).Some?
    case Planned | Actual => v.Number?
  }

  function GetActivity(row: ActivityData, c: ActivityColumn): Cell {
    match c
    case ActivityName => Text(row.name)
    case TypeColumn => Text(TypeName(row.activityType))
    case Planned => Number(row.planned)
    case Actual => Number(row.actual)
    case ActivityUnit => Text(row.unit)
    case Deadline => Text(row.deadline)
    case Responsible => Text(row.responsible)
  }

  function SetActivity(row: ActivityData, c: ActivityColumn, v: Cell): (r: ActivityData)
    requires FitsActivity(c, v)
    ensures GetActivity(r, c) == v
    ensures forall d :: d != c ==> GetActivity(r, d) == GetActivity(row, d)
    ensures r.id == row.id && r.progress == row.progress && r.status == row.status
  {
    match c
    case ActivityName => row.(name := v.text)
    case TypeColumn => row.(activityType := ParseType(v.text).value)
    case Planned => row.(planned := v.number)
    case Actual => row.(actual := v.number)
    case ActivityUnit => row.(unit := v.text)
    case Deadline => row.(deadline := v.text)
    case Responsible => row.(responsible := v.text)
  }

  /**
   * The row `handleActivityUpdate` stores: the cell is set; after an edit of
   * planned or actual, progress is the rounded percentage of the updated row
   * and status follows it; other edits keep progress and status.
   */
  function EditActivity(row: ActivityData, c: ActivityColumn, v: Cell): (r: ActivityData)
    requires FitsActivity(c, v)
    requires DrivesProgress(c) ==> SetActivity(row, c, v).planned != 0
    ensures GetActivity(r, c) == v
    ensures forall d :: d != c ==> GetActivity(r, d) == GetActivity(row, d)
    ensures r.id == row.id
    ensures DrivesProgress(c) ==> r.planned != 0 && (r.progress as real) - 0.5 <= Percent(r.actual, r.planned) < (r.progress as real) + 0.5
    ensures DrivesProgress(c) ==> r.status == ActivityStatusFor(r.progress)
    ensures !DrivesProgress(c) ==> r.progress == row.progress && r.status == row.status
  {
    var edited := SetActivity(row, c, v);
    if DrivesProgress(c) then
      var progress := ActivityProgress(edited.actual, edited.planned);
      edited.(progress := progress, status := ActivityStatusFor(progress))
    else edited
  }

  // ---------------------------------------------------------------------------
  // Rows added from the table's "add" form
  // ---------------------------------------------------------------------------

  /** The fields the add form may fill in; anything falsy falls back to a default. */
  datatype IndicatorDraft = IndicatorDraft(name: Option<string>, category: Option<string>, unit: Option<string>)

  datatype ActivityDraft = ActivityDraft(name: Option<string>, activityType: Option<ActivityType>, unit: Option<string>)

  /** The appended indicator: id `length + 1` in decimal, all numbers 0, off track and stable. */
  function NewIndicator(rows: seq<IndicatorData>, draft: IndicatorDraft, today: string): (r: IndicatorData)
    ensures r.id == NatToString(|rows| + 1)
    ensures r.baseline == 0 && r.target == 0 && r.current == 0
    ensures r.status == OffTrack && r.trend == Stable && r.lastUpdate == today
    ensures r.name == TextOr(draft.name, "Nouvel indicateur") && r.name != ""
    ensures r.category == TextOr(draft.category, "Production") && r.unit == TextOr(draft.unit, "")
    ensures r.dataSource == "Manuel" && r.frequency == "Mensuel"
  {
    IndicatorData(NatToString(|rows| + 1), TextOr(draft.name, "Nouvel indicateur"),
                  TextOr(draft.category, "Production"), 0, 0, 0, TextOr(draft.unit, ""),
                  "Manuel", "Mensuel", today, OffTrack, Stable)
  }

  /** The appended activity: id `length + 1`, nothing planned or done, not started, due today. */
  function NewActivity(rows: seq<ActivityData>, draft: ActivityDraft, today: string): (r: ActivityData)
    ensures r.id == NatToString(|rows| + 1)
    ensures r.planned == 0 && r.actual == 0 && r.progress == 0 && r.status == NotStarted
    ensures r.name == TextOr(draft.name, "Nouvelle activité") && r.name != ""
    ensures r.activityType == draft.activityType.GetOr(Input) && r.unit == TextOr(draft.unit, "")
    ensures r.deadline == today && r.responsible == "Non assigné"
  {
    ActivityData(NatToString(|rows| + 1), TextOr(draft.name, "Nouvelle activité"),
                 draft.activityType.GetOr(Input), 0, 0, TextOr(draft.unit, ""), 0, today,
                 "Non assigné", NotStarted)
  }

  /** Ids `"1"`, `"2"`, … in row order, as the add form hands them out. */
  predicate SequentialIds(rows: seq<IndicatorData>) {
    forall i :: 0 <= i < |rows| ==> rows[i].id == NatToString(i + 1)
  }

  /** While no row was deleted, the generated id is fresh. */
  lemma NewIndicatorIdFresh(rows: seq<IndicatorData>, draft: IndicatorDraft, today: string)
    requires SequentialIds(rows)
    ensures forall i :: 0 <= i < |rows| ==> rows[i].id != NewIndicator(rows, draft, today).id
  {
    forall i | 0 <= i < |rows|
      ensures rows[i].id != NewIndicator(rows, draft, today).id
    {
      if rows[i].id == NewIndicator(rows, draft, today).id {
        NatToStringInjective(i + 1, |rows| + 1);
      }
    }
  }

  /**
   * After deleting any row but the last, the next added indicator gets the
   * id of the row that is last, so two rows share an id.
   */
  lemma {:induction false} DeleteThenAddDuplicatesId(rows: seq<IndicatorData>, k: int, draft: IndicatorDraft, today: string)
    requires SequentialIds(rows)
    requires 0 <= k < |rows| - 1
    ensures var kept := RemoveAt(rows, k);
            var added := kept + [NewIndicator(kept, draft, today)];
            added[|kept| - 1].id == added[|kept|].id
  {
    var n := |rows|;
    var kept := RemoveAt(rows, k);
    assert kept == rows[..k] + rows[k + 1..];
    assert |kept| == n - 1;
    assert kept[n - 2] == rows[n - 1];
    var added := kept + [NewIndicator(kept, draft, today)];
    assert added[n - 2] == rows[n - 1];
    assert rows[n - 1].id == NatToString(n);
    assert added[n - 1].id == NatToString(n);
  }

  // ---------------------------------------------------------------------------
  // Overall progress
  // ---------------------------------------------------------------------------

  function IsOnTrack(): IndicatorData -> bool {
    (i: IndicatorData) => i.status == OnTrack
  }

  /**
   * `getOverallProgress`: the rounded share of on-track indicators, in percent;
   * `None` for an empty table, where JavaScript divides 0 by 0.
   */
  function OverallProgress(rows: seq<IndicatorData>): (r: Option<int>)
    ensures r.None? <==> rows == []
    ensures r.Some? ==> 0 <= r.value <= 100
    ensures r.Some? ==> (r.value as real) - 0.5 <= Percent(Count(rows, IsOnTrack()), |rows|) < (r.value as real) + 0.5
  {
    if rows == [] then None
    else
      RoundDivPercent(100 * Count(rows, IsOnTrack()), |rows|);
      RoundedPercent(Count(rows, IsOnTrack()), |rows|);
      Some(RoundDiv(100 * Count(rows, IsOnTrack()), |rows|))
  }

  lemma HundredPercentOfWhole(n: int)
    requires n > 0
    ensures RoundDiv(100 * n, n) == 100
  {
    RoundDivUnique(100 * n, n, 100);
  }

  /** All indicators on track shows 100%. */
  lemma AllOnTrackIsHundred(rows: seq<IndicatorData>)
    requires rows != []
    requires forall i :: 0 <= i < |rows| ==> rows[i].status == OnTrack
    ensures OverallProgress(rows) == Some(100)
  {
    var n := |rows|;
    assert forall x :: x in rows ==> IsOnTrack()(x) by {
      forall x | x in rows ensures IsOnTrack()(x) {
        var i :| 0 <= i < n && rows[i] == x;
      }
    }
    FilterAll(rows, IsOnTrack());
    assert Count(rows, IsOnTrack()) == n;
    HundredPercentOfWhole(n);
  }

  /** No indicator on track shows 0%. */
  lemma NoneOnTrackIsZero(rows: seq<IndicatorData>)
    requires rows != []
    requires forall i :: 0 <= i < |rows| ==> rows[i].status != OnTrack
    ensures OverallProgress(rows) == Some(0)
  {
    RoundDivUnique(0, |rows|, 0);
  }

  // ---------------------------------------------------------------------------
  // Seed rows
  // ---------------------------------------------------------------------------

  function InitialActivities(): seq<ActivityData> {
    [ ActivityData("1", "Formation des agriculteurs", Input, 100, 85, "participants", 85, "2024-03-31", "Équipe formation", InProgress),
      ActivityData("2", "Distribution d'intrants", Input, 500, 500, "kits", 100, "2024-02-28", "Équipe logistique", Completed),
      ActivityData("3", "Augmentation des rendements", Outcome, 30, 20, "%", 67, "2024-12-31", "Équipe technique", Delayed) ]
  }

  /**
   * The seed progress values agree with the rounding rule, but the third
   * activity's status does not: re-entering its actual value turns "delayed"
   * (as seeded) into "in progress" (67%). Likewise an indicator at 45 of 80
   * (seeded "at risk") becomes "off track" (56%) on any edit of a number.
   */
  lemma SeedStatusesDisagreeWithRules()
    ensures forall i :: 0 <= i < 3 ==>
              InitialActivities()[i].progress == ActivityProgress(InitialActivities()[i].actual, InitialActivities()[i].planned)
    ensures EditActivity(InitialActivities()[2], Actual, Number(20)).status == InProgress != InitialActivities()[2].status
    ensures IndicatorStatusFor(45, 80) == OffTrack
  {
    RoundDivUnique(8500, 100, 85);
    RoundDivUnique(50000, 500, 100);
    RoundDivUnique(2000, 30, 67);
  }

  // ---------------------------------------------------------------------------
  // The board's state
  // ---------------------------------------------------------------------------

  class MonitoringBoard {
    var indicatorData: seq<IndicatorData>
    var activityData: seq<ActivityData>

    constructor (indicators: seq<IndicatorData>)
      ensures indicatorData == indicators && activityData == InitialActivities()
    {
      indicatorData := indicators;
      activityData := InitialActivities();
    }

    /** `handleIndicatorUpdate`: a copy of the list with row `rowIndex` replaced. */
    method UpdateIndicator(rowIndex: int, c: IndicatorColumn, v: Cell)
      requires 0 <= rowIndex < |indicatorData|
      requires FitsIndicator(c, v)
      modifies this
      ensures indicatorData == old(indicatorData)[rowIndex := EditIndicator(old(indicatorData)[rowIndex], c, v)]
      ensures activityData == old(activityData)
    {
      var newData := indicatorData;
      newData := newData[rowIndex := SetIndicator(newData[rowIndex], c, v)];
      if DrivesStatus(c) {
        var indicator := newData[rowIndex];
        newData := newData[rowIndex := indicator.(status := IndicatorStatusFor(indicator.current, indicator.target))];
      }
      indicatorData := newData;
    }

    /** `handleActivityUpdate`. */
    method UpdateActivity(rowIndex: int, c: ActivityColumn, v: Cell)
      requires 0 <= rowIndex < |activityData|
      requires FitsActivity(c, v)
      requires DrivesProgress(c) ==> SetActivity(activityData[rowIndex], c, v).planned != 0
      modifies this
      ensures activityData == old(activityData)[rowIndex := EditActivity(old(activityData)[rowIndex], c, v)]
      ensures indicatorData == old(indicatorData)
    {
      var newData := activityData;
      newData := newData[rowIndex := SetActivity(newData[rowIndex], c, v)];
      if DrivesProgress(c) {
        var activity := newData[rowIndex];
        var progress := ActivityProgress(activity.actual, activity.planned);
        newData := newData[rowIndex := activity.(progress := progress, status := ActivityStatusFor(progress))];
      }
      activityData := newData;
    }

    /** The indicator table's `onAdd`. */
    method AddIndicator(draft: IndicatorDraft, today: string)
      modifies this
      ensures indicatorData == old(indicatorData) + [NewIndicator(old(indicatorData), draft, today)]
      ensures activityData == old(activityData)
    {
      indicatorData := indicatorData + [NewIndicator(indicatorData, draft, today)];
    }

    /** The activity table's `onAdd`. */
    method AddActivity(draft: ActivityDraft, today: string)
      modifies this
      ensures activityData == old(activityData) + [NewActivity(old(activityData), draft, today)]
      ensures indicatorData == old(indicatorData)
    {
      activityData := activityData + [NewActivity(activityData, draft, today)];
    }

    /** The indicator table's `onDelete`: keep every row whose index is not `rowIndex`. */
    method DeleteIndicator(rowIndex: int)
      modifies this
      ensures indicatorData == RemoveAt(old(indicatorData), rowIndex)
      ensures activityData == old(activityData)
    {
      indicatorData := RemoveAt(indicatorData, rowIndex);
    }

    /** The activity table's `onDelete`. */
    method DeleteActivity(rowIndex: int)
      modifies this
      ensures activityData == RemoveAt(old(activityData), rowIndex)
      ensures indicatorData == old(indicatorData)
    {
      activityData := RemoveAt(activityData, rowIndex);
    }
  }
}

=== FILE: project_context.dfy ===
/**
 * The process-wide project store: a list of projects, each carrying its
 * activities, and the project currently selected for display. Every
 * operation replaces the list with a new one built by append, map or filter;
 * the two queries (progress of one project, statistics over all of them)
 * are reductions over the current list.
 */
module ProjectContext {
  import opened Common

  datatype ProjectStatus = Planning | Active | Completed | Suspended

  datatype ActivityStatus = NotStarted | InProgress | Finished | Delayed

  datatype Activity = Activity(
    id: string,
    name: string,
    description: string,
    startDate: string,
    endDate: string,
    status: ActivityStatus,
    progress: int,
    responsible: string,
    indicators: seq<string>,
    budget: int,
    dependencies: seq<string>)

  datatype Project = Project(
    id: string,
    name: string,
    description: string,
    startDate: string,
    endDate: string,
    status: ProjectStatus,
    progress: int,
    budget: int,
    sector: string,
    location: string,
    manager: string,
    objectives: seq<string>,
    activities: seq<Activity>,
    beneficiaries: int)

  /** `Partial<Project>`: a field that is `Some` overrides, `None` keeps the old value. */
  datatype ProjectPatch = ProjectPatch(
    id: Option<string>,
    name: Option<string>,
    description: Option<string>,
    startDate: Option<string>,
    endDate: Option<string>,
    status: Option<ProjectStatus>,
    progress: Option<int>,
    budget: Option<int>,
    sector: Option<string>,
    location: Option<string>,
    manager: Option<string>,
    objectives: Option<seq<string>>,
    activities: Option<seq<Activity>>,
    beneficiaries: Option<int>)

  /** `Partial<Activity>`. */
  datatype ActivityPatch = ActivityPatch(
    id: Option<string>,
    name: Option<string>,
    description: Option<string>,
    startDate: Option<string>,
    endDate: Option<string>,
    status: Option<ActivityStatus>,
    progress: Option<int>,
    responsible: Option<string>,
    indicators: Option<seq<string>>,
    budget: Option<int>,
    dependencies: Option<seq<string>>)

  const NoChange := ProjectPatch(None, None, None, None, None, None, None, None, None, None, None, None, None, None)

  const NoActivityChange := ActivityPatch(None, None, None, None, None, None, None, None, None, None, None)

  // ---------------------------------------------------------------------------
  // Object spread: `{ ...p, ...patch }`
  // ---------------------------------------------------------------------------

  function Merge(p: Project, u: ProjectPatch): Project {
    Project(
      u.id.GetOr(p.id), u.name.GetOr(p.name), u.description.GetOr(p.description),
      u.startDate.GetOr(p.startDate), u.endDate.GetOr(p.endDate), u.status.GetOr(p.status),
      u.progress.GetOr(p.progress), u.budget.GetOr(p.budget), u.sector.GetOr(p.sector),
      u.location.GetOr(p.location), u.manager.GetOr(p.manager), u.objectives.GetOr(p.objectives),
      u.activities.GetOr(p.activities), u.beneficiaries.GetOr(p.beneficiaries))
  }

  function MergeActivity(a: Activity, u: ActivityPatch): Activity {
    Activity(
      u.id.GetOr(a.id), u.name.GetOr(a.name), u.description.GetOr(a.description),
      u.startDate.GetOr(a.startDate), u.endDate.GetOr(a.endDate), u.status.GetOr(a.status),
      u.progress.GetOr(a.progress), u.responsible.GetOr(a.responsible),
      u.indicators.GetOr(a.indicators), u.budget.GetOr(a.budget),
      u.dependencies.GetOr(a.dependencies))
  }

  /** `{ ...u, ...v }`: the patch that applying `u` and then `v` amounts to. */
  function Combine(u: ProjectPatch, v: ProjectPatch): ProjectPatch {
    ProjectPatch(
      Or(v.id, u.id), Or(v.name, u.name), Or(v.description, u.description),
      Or(v.startDate, u.startDate), Or(v.endDate, u.endDate), Or(v.status, u.status),
      Or(v.progress, u.progress), Or(v.budget, u.budget), Or(v.sector, u.sector),
      Or(v.location, u.location), Or(v.manager, u.manager), Or(v.objectives, u.objectives),
      Or(v.activities, u.activities), Or(v.beneficiaries, u.beneficiaries))
  }

  /** The patch that sets every field to those of `q`. */
  function Overwrite(q: Project): ProjectPatch {
    ProjectPatch(
      Some(q.id), Some(q.name), Some(q.description), Some(q.startDate), Some(q.endDate),
      Some(q.status), Some(q.progress), Some(q.budget), Some(q.sector), Some(q.location),
      Some(q.manager), Some(q.objectives), Some(q.activities), Some(q.beneficiaries))
  }

  /**
   * The laws of a spread merge: an empty patch changes nothing, a patch applied
   * twice is applied once, two patches in a row are their combination, and a
   * patch naming every field yields exactly those fields.
   */
  lemma MergeLaws(p: Project, u: ProjectPatch, v: ProjectPatch, q: Project)
    ensures Merge(p, NoChange) == p
    ensures Merge(Merge(p, u), u) == Merge(p, u)
    ensures Merge(Merge(p, u), v) == Merge(p, Combine(u, v))
    ensures Merge(p, Overwrite(q)) == q
  {
  }

  // ---------------------------------------------------------------------------
  // Predicates and transformers handed to the list operations
  // ---------------------------------------------------------------------------

  function HasId(id: string): Project -> bool {
    (p: Project) => p.id == id
  }

  function LacksId(id: string): Project -> bool {
    (p: Project) => p.id != id
  }

  function HasStatus(status: ProjectStatus): Project -> bool {
    (p: Project) => p.status == status
  }

  function ActivityHasId(id: string): Activity -> bool {
    (a: Activity) => a.id == id
  }

  function MergeWith(u: ProjectPatch): Project -> Project {
    (p: Project) => Merge(p, u)
  }

  function AppendActivity(a: Activity): Project -> Project {
    (p: Project) => p.(activities := p.activities + [a])
  }

  function PatchActivities(activityId: string, u: ActivityPatch): Project -> Project {
    (p: Project) => p.(activities := MapWhere(p.activities, ActivityHasId(activityId), (a: Activity) => MergeActivity(a, u)))
  }

  function BudgetOf(p: Project): int { p.budget }

  function BeneficiariesOf(p: Project): int { p.beneficiaries }

  function ProgressOf(a: Activity): int { a.progress }

  // ---------------------------------------------------------------------------
  // Transitions of the project list
  // ---------------------------------------------------------------------------

  /** `projects.map(p => p.id === id ? { ...p, ...u } : p)`. */
  function UpdateProjects(ps: seq<Project>, id: string, u: ProjectPatch): (r: seq<Project>)
    ensures |r| == |ps|
    ensures forall i :: 0 <= i < |ps| && ps[i].id != id ==> r[i] == ps[i]
    ensures forall i :: 0 <= i < |ps| && ps[i].id == id ==> r[i] == Merge(ps[i], u)
  {
    MapWhere(ps, HasId(id), MergeWith(u))
  }

  /** `projects.filter(p => p.id !== id)`. */
  function DeleteProjects(ps: seq<Project>, id: string): (r: seq<Project>)
    ensures forall p :: p in r <==> p in ps && p.id != id
    ensures IsSubseq(r, ps)
    ensures |r| == |ps| - Count(ps, HasId(id))
  {
    CountComplement(ps, LacksId(id), HasId(id));
    Filter(ps, LacksId(id))
  }

  /** `projects.find(p => p.id === id)`: the first project with that id. */
  function FindProject(ps: seq<Project>, id: string): (r: Option<Project>)
    ensures r.None? <==> forall p :: p in ps ==> p.id != id
    ensures r.Some? ==> exists k :: 0 <= k < |ps| && ps[k] == r.value && r.value.id == id
                                    && forall j :: 0 <= j < k ==> ps[j].id != id
  {
    Find(ps, HasId(id))
  }

  /**
   * `addActivity`: the new activity, with its generated id, is appended to the
   * activities of every project with `projectId`; nothing else changes.
   */
  function AddActivityTo(ps: seq<Project>, projectId: string, draft: Activity, newId: string): (r: seq<Project>)
    ensures |r| == |ps|
    ensures forall i :: 0 <= i < |ps| ==> r[i].(activities := ps[i].activities) == ps[i]
    ensures forall i :: 0 <= i < |ps| ==>
              r[i].activities == if ps[i].id == projectId then ps[i].activities + [draft.(id := newId)]
                                 else ps[i].activities
    ensures (forall p :: p in ps ==> p.id != projectId) ==> r == ps
  {
    MapWhere(ps, HasId(projectId), AppendActivity(draft.(id := newId)))
  }

  /**
   * `updateActivity`: in every project with `projectId`, the activities with
   * `activityId` take the patch; all other activities and projects, and all
   * other fields, are unchanged.
   */
  function UpdateActivityIn(ps: seq<Project>, projectId: string, activityId: string, u: ActivityPatch): (r: seq<Project>)
    ensures |r| == |ps|
    ensures forall i :: 0 <= i < |ps| ==> r[i].(activities := ps[i].activities) == ps[i]
    ensures forall i :: 0 <= i < |ps| ==> |r[i].activities| == |ps[i].activities|
    ensures forall i, j :: 0 <= i < |ps| && 0 <= j < |ps[i].activities| ==>
              r[i].activities[j] == if ps[i].id == projectId && ps[i].activities[j].id == activityId
                                    then MergeActivity(ps[i].activities[j], u)
                                    else ps[i].activities[j]
    ensures (forall p :: p in ps ==> p.id != projectId) ==> r == ps
  {
    MapWhere(ps, HasId(projectId), PatchActivities(activityId, u))
  }

  // ---------------------------------------------------------------------------
  // Queries
  // ---------------------------------------------------------------------------

  function TotalProgress(activities: seq<Activity>): int {
    Sum(activities, ProgressOf)
  }

  /**
   * `getProjectProgress`: 0 for an unknown project or one without activities,
   * otherwise the mean activity progress rounded half up.
   */
  function ProjectProgress(ps: seq<Project>, projectId: string): (r: int)
    ensures FindProject(ps, projectId).None? ==> r == 0
    ensures FindProject(ps, projectId).Some? && FindProject(ps, projectId).value.activities == [] ==> r == 0
    ensures FindProject(ps, projectId).Some? && FindProject(ps, projectId).value.activities != [] ==>
              var n := |FindProject(ps, projectId).value.activities|;
              var total := TotalProgress(FindProject(ps, projectId).value.activities);
              n * (2 * r - 1) <= 2 * total < n * (2 * r + 1)
    ensures (forall p, a :: p in ps && a in p.activities ==> 0 <= a.progress <= 100) ==> 0 <= r <= 100
  {
    match FindProject(ps, projectId)
    case None => 0
    case Some(p) =>
      if |p.activities| == 0 then 0
      else
        MeanProgressIsPercent(p.activities);
        RoundDiv(TotalProgress(p.activities), |p.activities|)
  }

  /** The rounded mean of progress values in [0, 100] is in [0, 100]. */
  lemma MeanProgressIsPercent(activities: seq<Activity>)
    requires activities != []
    ensures (forall a :: a in activities ==> 0 <= a.progress <= 100) ==>
              0 <= RoundDiv(TotalProgress(activities), |activities|) <= 100
  {
    if forall a :: a in activities ==> 0 <= a.progress <= 100 {
      SumBounds(activities, ProgressOf, 0, 100);
      RoundDivPercent(TotalProgress(activities), |activities|);
    }
  }

  datatype Stats = Stats(
    totalProjects: nat,
    activeProjects: nat,
    completedProjects: nat,
    totalBudget: int,
    totalBeneficiaries: int)

  /** `getOverallStats`: counts by status and sums over every project. */
  function OverallStats(ps: seq<Project>): (s: Stats)
    ensures s.totalProjects == |ps|
    ensures s.activeProjects + s.completedProjects <= s.totalProjects
    ensures s.activeProjects == Count(ps, HasStatus(Active))
    ensures s.completedProjects == Count(ps, HasStatus(Completed))
    ensures s.totalBudget == Sum(ps, BudgetOf) && s.totalBeneficiaries == Sum(ps, BeneficiariesOf)
  {
    CountDisjoint(ps, HasStatus(Active), HasStatus(Completed));
    Stats(|ps|, Count(ps, HasStatus(Active)), Count(ps, HasStatus(Completed)),
          Sum(ps, BudgetOf), Sum(ps, BeneficiariesOf))
  }

  /** Adding a project adds one to the total and its budget and beneficiaries to the sums. */
  lemma StatsAfterAdd(ps: seq<Project>, draft: Project, newId: string)
    ensures var before, after := OverallStats(ps), OverallStats(ps + [draft.(id := newId)]);
            && after.totalProjects == before.totalProjects + 1
            && after.activeProjects == before.activeProjects + (if draft.status == Active then 1 else 0)
            && after.completedProjects == before.completedProjects + (if draft.status == Completed then 1 else 0)
            && after.totalBudget == before.totalBudget + draft.budget
            && after.totalBeneficiaries == before.totalBeneficiaries + draft.beneficiaries
  {
    var q := draft.(id := newId);
    CountAppend(ps, q, HasStatus(Active));
    CountAppend(ps, q, HasStatus(Completed));
    SumAppend(ps, [q], BudgetOf);
    SumAppend(ps, [q], BeneficiariesOf);
  }

  /**
   * A selected project is a snapshot: once an update changes its name, the
   * snapshot no longer occurs in the store, while the selection still holds it.
   */
  lemma UpdateLeavesSnapshotStale(ps: seq<Project>, current: Project, u: ProjectPatch)
    requires current in ps
    requires u.name.Some? && u.name.value != current.name
    ensures current !in UpdateProjects(ps, current.id, u)
    ensures exists k :: 0 <= k < |ps| && UpdateProjects(ps, current.id, u)[k] == Merge(current, u)
  {
    var r := UpdateProjects(ps, current.id, u);
    var k :| 0 <= k < |ps| && ps[k] == current;
    assert r[k] == Merge(current, u);
  }

  // ---------------------------------------------------------------------------
  // Seed data
  // ---------------------------------------------------------------------------

  /** `initialProjects`: the two projects the store starts with. */
  function InitialProjects(): seq<Project> {
    [SeedProject1(), SeedProject2()]
  }

  function SeedProject1(): Project {
    Project("1", "Projet Agricole Durable",
      "Amélioration des pratiques agricoles durables en Guadeloupe",
      "2024-01-01", "2024-12-31", Active, 65, 150000, "agriculture", "Guadeloupe", "Jean Dupont",
      ["Augmenter les rendements de 30%", "Former 100 agriculteurs",
       "Réduire l'usage de pesticides de 50%"],
      [ Activity("1-1", "Formation des agriculteurs", "Sessions de formation sur les techniques durables",
                 "2024-02-01", "2024-06-30", InProgress, 75, "Marie Martin",
                 ["Nombre de participants", "Taux de satisfaction"], 25000, []),
        Activity("1-2", "Distribution d'équipements", "Fourniture d'outils et équipements agricoles",
                 "2024-03-01", "2024-09-30", InProgress, 60, "Paul Leroy",
                 ["Nombre d'équipements distribués", "Taux d'utilisation"], 75000, ["1-1"]) ],
      500)
  }

  function SeedProject2(): Project {
    Project("2", "Programme Éducation Numérique", "Digitalisation des écoles rurales",
      "2024-03-01", "2025-02-28", Active, 35, 200000, "education", "Martinique", "Sophie Bernard",
      ["Équiper 20 écoles", "Former 150 enseignants", "Améliorer les résultats scolaires de 25%"],
      [ Activity("2-1", "Installation d'équipements", "Mise en place des infrastructures numériques",
                 "2024-04-01", "2024-08-31", InProgress, 40, "Tech Solutions",
                 ["Écoles équipées", "Connectivité internet"], 120000, []) ],
      1200)
  }

  /** On the seed data, project "1" averages (75 + 60) / 2 = 67.5, which rounds to 68. */
  lemma InitialProgress()
    ensures ProjectProgress(InitialProjects(), "1") == 68
    ensures ProjectProgress(InitialProjects(), "3") == 0
  {
    var ps := InitialProjects();
    var a, b := SeedProject1(), SeedProject2();
    assert IndexWhere(ps, HasId("1")) == 0;
    assert IndexWhere([b], HasId("3")) == -1;
    assert IndexWhere(ps, HasId("3")) == -1;
    var acts := a.activities;
    assert acts == [acts[0], acts[1]];
    SumPair(acts[0], acts[1], ProgressOf);
    RoundDivUnique(135, 2, 68);
  }

  /** On the seed data: two active projects, 350000 in budgets, 1700 beneficiaries. */
  lemma InitialStats()
    ensures OverallStats(InitialProjects()) == Stats(2, 2, 0, 350000, 1700)
  {
    var a, b := SeedProject1(), SeedProject2();
    CountPair(a, b, HasStatus(Active));
    CountPair(a, b, HasStatus(Completed));
    SumPair(a, b, BudgetOf);
    SumPair(a, b, BeneficiariesOf);
  }

  // ---------------------------------------------------------------------------
  // The store
  // ---------------------------------------------------------------------------

  class ProjectStore {
    var projects: seq<Project>
    var currentProject: Option<Project>

    constructor ()
      ensures projects == InitialProjects() && currentProject == None
    {
      projects := InitialProjects();
      currentProject := None;
    }

    /** Appends the project under a freshly generated id (passed in). */
    method AddProject(draft: Project, newId: string)
      modifies this
      ensures projects == old(projects) + [draft.(id := newId)]
      ensures currentProject == old(currentProject)
    {
      projects := projects + [draft.(id := newId)];
    }

    /** Merges the patch into every project with `id`; the selection is left as it was. */
    method UpdateProject(id: string, u: ProjectPatch)
      modifies this
      ensures projects == UpdateProjects(old(projects), id, u)
      ensures currentProject == old(currentProject)
    {
      projects := UpdateProjects(projects, id, u);
    }

    /** Removes every project with `id`; clears the selection exactly when it has that id. */
    method DeleteProject(id: string)
      modifies this
      ensures projects == DeleteProjects(old(projects), id)
      ensures old(currentProject).Some? && old(currentProject).value.id == id ==> currentProject == None
      ensures !(old(currentProject).Some? && old(currentProject).value.id == id) ==> currentProject == old(currentProject)
    {
      projects := DeleteProjects(projects, id);
      if currentProject.Some? && currentProject.value.id == id {
        currentProject := None;
      }
    }

    /** Selects the first project with `id`, or nothing when there is none. */
    method SetCurrentProject(id: string)
      modifies this
      ensures currentProject == FindProject(old(projects), id)
      ensures projects == old(projects)
    {
      currentProject := FindProject(projects, id);
    }

    method AddActivity(projectId: string, draft: Activity, newId: string)
      modifies this
      ensures projects == AddActivityTo(old(projects), projectId, draft, newId)
      ensures currentProject == old(currentProject)
    {
      projects := AddActivityTo(projects, projectId, draft, newId);
    }

    method UpdateActivity(projectId: string, activityId: string, u: ActivityPatch)
      modifies this
      ensures projects == UpdateActivityIn(old(projects), projectId, activityId, u)
      ensures currentProject == old(currentProject)
    {
      projects := UpdateActivityIn(projects, projectId, activityId, u);
    }
  }
}

=== FILE: project_management.dfy ===
/**
 * The project management screen: a status filter over the store's projects,
 * the summary cards (always over the whole store), and a table whose row
 * actions translate a row index of the FILTERED list into a project id
 * before calling the store.
 */
module ProjectManagement {
  import opened Common
  import opened ProjectContext

  /** The filter buttons: 'all', 'active', 'completed', 'planning'. */
  datatype StatusFilter = All | ActiveOnly | CompletedOnly | PlanningOnly

  function Shows(f: StatusFilter): Project -> bool {
    match f
    case All => (p: Project) => true
    case ActiveOnly => HasStatus(Active)
    case CompletedOnly => HasStatus(Completed)
    case PlanningOnly => HasStatus(Planning)
  }

  /** The status a filter other than 'all' selects. */
  function Selected(f: StatusFilter): ProjectStatus
    requires f != All
  {
    match f
    case ActiveOnly => Active
    case CompletedOnly => Completed
    case PlanningOnly => Planning
  }

  /**
   * `filteredProjects`: the whole list for 'all', otherwise exactly the
   * projects with the selected status, in store order.
   */
  function FilteredProjects(ps: seq<Project>, f: StatusFilter): (r: seq<Project>)
    ensures f == All ==> r == ps
    ensures f != All ==> forall p :: p in r <==> p in ps && p.status == Selected(f)
    ensures f != All ==> forall p :: multiset(r)[p] == if p.status == Selected(f) then multiset(ps)[p] else 0
    ensures f != All ==> |r| == Count(ps, HasStatus(Selected(f)))
    ensures IsSubseq(r, ps)
    ensures |r| <= |ps|
  {
    if f == All then
      FilterAll(ps, Shows(f));
      Filter(ps, Shows(f))
    else
      assert Shows(f) == HasStatus(Selected(f));
      Filter(ps, Shows(f))
  }

  datatype Overview = Overview(stats: Stats, rows: seq<Project>)

  /**
   * What the screen shows: statistics over the whole store, whatever the
   * filter, and the filtered rows. The row count matches the statistic for
   * the selected status.
   */
  function ScreenOverview(ps: seq<Project>, f: StatusFilter): (v: Overview)
    ensures v.stats == OverallStats(ps)
    ensures |v.rows| <= v.stats.totalProjects
    ensures f == All ==> |v.rows| == v.stats.totalProjects
    ensures f == ActiveOnly ==> |v.rows| == v.stats.activeProjects
    ensures f == CompletedOnly ==> |v.rows| == v.stats.completedProjects
    ensures f == PlanningOnly ==> |v.rows| == Count(ps, HasStatus(Planning))
  {
    Overview(OverallStats(ps), FilteredProjects(ps, f))
  }

  // ---------------------------------------------------------------------------
  // Editable table cells
  // ---------------------------------------------------------------------------

  /** The editable columns of the project table. */
  datatype ProjectColumn = Name | Sector | Status | Progress | Budget | Manager | Location | Beneficiaries

  function StatusName(s: ProjectStatus): string {
    match s
    case Planning => "planning"
    case Active => "active"
    case Completed => "completed"
    case Suspended => "suspended"
  }

  function ParseStatus(text: string): (r: Option<ProjectStatus>)
    ensures r.Some? ==> StatusName(r.value) == text
    ensures forall s :: text == StatusName(s) ==> r == Some(s)
  {
    if text == "planning" then Some(Planning)
    else if text == "active" then Some(Active)
    else if text == "completed" then Some(Completed)
    else if text == "suspended" then Some(Suspended)
    else None
  }

  /** A value the column can hold: text, one of the four status names, or a number. */
  predicate Fits(c: ProjectColumn, v: Cell) {
    match c
    case Name | Sector | Manager | Location => v.Text?
    case Status => v.Text? && ParseStatus(v.text).Some?
    case Progress | Budget | Beneficiaries => v.Number?
  }

  function Get(p: Project, c: ProjectColumn): Cell {
    match c
    case Name => Text(p.name)
    case Sector => Text(p.sector)
    case Status => Text(StatusName(p.status))
    case Progress => Number(p.progress)
    case Budget => Number(p.budget)
    case Manager => Text(p.manager)
    case Location => Text(p.location)
    case Beneficiaries => Number(p.beneficiaries)
  }

  /** `{ [columnId]: value }`: a patch naming one column. */
  function ColumnPatch(c: ProjectColumn, v: Cell): ProjectPatch
    requires Fits(c, v)
  {
    match c
    case Name => NoChange.(name := Some(v.text))
    case Sector => NoChange.(sector := Some(v.text))
    case Status => NoChange.(status := ParseStatus(v.text))
    case Progress => NoChange.(progress := Some(v.number))
    case Budget => NoChange.(budget := Some(v.number))
    case Manager => NoChange.(manager := Some(v.text))
    case Location => NoChange.(location := Some(v.text))
    case Beneficiaries => NoChange.(beneficiaries := Some(v.number))
  }

  /**
   * Merging a one-column patch sets that column to the value and leaves every
   * other column, and every field outside the table, as it was.
   */
  lemma ColumnEdit(p: Project, c: ProjectColumn, v: Cell)
    requires Fits(c, v)
    ensures Get(Merge(p, ColumnPatch(c, v)), c) == v
    ensures forall d :: d != c ==> Get(Merge(p, ColumnPatch(c, v)), d) == Get(p, d)
    ensures var q := Merge(p, ColumnPatch(c, v));
            q.id == p.id && q.description == p.description && q.startDate == p.startDate
            && q.endDate == p.endDate && q.objectives == p.objectives && q.activities == p.activities
  {
  }

  // ---------------------------------------------------------------------------
  // Row index of the filtered view -> project id
  // ---------------------------------------------------------------------------

  ghost predicate UniqueIds(ps: seq<Project>) {
    forall i, j :: 0 <= i < j < |ps| ==> ps[i].id != ps[j].id
  }

  /**
   * Editing row `i` patches the project shown in that row of the filtered view
   * (its patched version is in the store afterwards) and no project with
   * another id.
   */
  lemma {:induction false} RowEditTargetsShownProject(ps: seq<Project>, f: StatusFilter, i: int, c: ProjectColumn, v: Cell)
    requires 0 <= i < |FilteredProjects(ps, f)| && Fits(c, v)
    ensures var row := FilteredProjects(ps, f)[i];
            var r := UpdateProjects(ps, row.id, ColumnPatch(c, v));
            && Merge(row, ColumnPatch(c, v)) in r
            && forall j :: 0 <= j < |ps| && ps[j].id != row.id ==> r[j] == ps[j]
  {
    var row := FilteredProjects(ps, f)[i];
    assert row in ps;
    var k :| 0 <= k < |ps| && ps[k] == row;
    assert UpdateProjects(ps, row.id, ColumnPatch(c, v))[k] == Merge(row, ColumnPatch(c, v));
  }

  /**
   * Row index and store index differ under a filter: with a planning project
   * first and an active one second, row 0 of the 'active' view is the
   * store's second project.
   */
  lemma FilteredRowIsNotStoreRow()
    ensures var ps := [InitialProjects()[0].(status := Planning), InitialProjects()[1]];
            FilteredProjects(ps, ActiveOnly)[0] == ps[1] != ps[0]
  {
    var ps := [InitialProjects()[0].(status := Planning), InitialProjects()[1]];
    assert ps[1..][1..] == [];
    assert Filter(ps, Shows(ActiveOnly)) == [ps[1]];
  }

  /** Deleting row `i` removes the shown project, and the store shrinks. */
  lemma {:induction false} RowDeleteRemovesShownProject(ps: seq<Project>, f: StatusFilter, i: int)
    requires 0 <= i < |FilteredProjects(ps, f)|
    ensures var row := FilteredProjects(ps, f)[i];
            var r := DeleteProjects(ps, row.id);
            row !in r && |r| < |ps|
  {
    var row := FilteredProjects(ps, f)[i];
    assert row in ps;
    assert row in Filter(ps, HasId(row.id));
  }

  /** With unique ids, "view details" on row `i` selects exactly the shown project. */
  lemma {:induction false} DetailsSelectShownProject(ps: seq<Project>, f: StatusFilter, i: int)
    requires 0 <= i < |FilteredProjects(ps, f)|
    requires UniqueIds(ps)
    ensures FindProject(ps, FilteredProjects(ps, f)[i].id) == Some(FilteredProjects(ps, f)[i])
  {
    var row := FilteredProjects(ps, f)[i];
    assert row in ps;
    var m :| 0 <= m < |ps| && ps[m] == row;
    var found := FindProject(ps, row.id);
    var k :| 0 <= k < |ps| && ps[k] == found.value && found.value.id == row.id
             && forall j :: 0 <= j < k ==> ps[j].id != row.id;
    assert k == m;
  }

  // ---------------------------------------------------------------------------
  // Table callbacks, acting on the shared store
  // ---------------------------------------------------------------------------

  /** `handleProjectUpdate`: patch the project shown in row `rowIndex` of the filtered view. */
  method HandleProjectUpdate(store: ProjectStore, f: StatusFilter, rowIndex: int, c: ProjectColumn, v: Cell)
    requires 0 <= rowIndex < |FilteredProjects(store.projects, f)|
    requires Fits(c, v)
    modifies store
    ensures store.projects == UpdateProjects(old(store.projects), FilteredProjects(old(store.projects), f)[rowIndex].id, ColumnPatch(c, v))
    ensures store.currentProject == old(store.currentProject)
  {
    var project := FilteredProjects(store.projects, f)[rowIndex];
    store.UpdateProject(project.id, ColumnPatch(c, v));
  }

  /** `handleProjectDelete`: delete the project shown in row `rowIndex` of the filtered view. */
  method HandleProjectDelete(store: ProjectStore, f: StatusFilter, rowIndex: int)
    requires 0 <= rowIndex < |FilteredProjects(store.projects, f)|
    modifies store
    ensures var row := FilteredProjects(old(store.projects), f)[rowIndex];
            && store.projects == DeleteProjects(old(store.projects), row.id)
            && store.currentProject == if old(store.currentProject).Some? && old(store.currentProject).value.id == row.id
                                       then None else old(store.currentProject)
  {
    var project := FilteredProjects(store.projects, f)[rowIndex];
    store.DeleteProject(project.id);
  }

  /** The "view details" row action: select the project shown in row `rowIndex`. */
  method ShowDetails(store: ProjectStore, f: StatusFilter, rowIndex: int)
    requires 0 <= rowIndex < |FilteredProjects(store.projects, f)|
    modifies store
    ensures store.currentProject == FindProject(old(store.projects), FilteredProjects(old(store.projects), f)[rowIndex].id)
    ensures store.currentProject.Some?
    ensures store.projects == old(store.projects)
  {
    var project := FilteredProjects(store.projects, f)[rowIndex];
    store.SetCurrentProject(project.id);
  }
}

=== FILE: sector_context.dfy ===
/**
 * The sector selection shared by the dashboard: a stored sector id, resolved
 * against the fixed list of sector configurations with a fallback to the
 * first one, and a configuration-mode flag.
 */
module SectorContext {
  import opened Common

  /** A sector configuration, reduced to its identity (modules and evaluation framework are static data). */
  datatype SectorConfig = SectorConfig(id: string, name: string)

  function SectorConfigs(): (cs: seq<SectorConfig>)
    ensures |cs| == 3
  {
    [ SectorConfig("agriculture", "Agriculture"),
      SectorConfig("education", "Éducation"),
      SectorConfig("health", "Santé") ]
  }

  function HasSectorId(id: string): SectorConfig -> bool {
    (s: SectorConfig) => s.id == id
  }

  /**
   * `SECTOR_CONFIGS.find(s => s.id === id) || SECTOR_CONFIGS[0]`: the first
   * configuration with that id, or the first configuration when none has it.
   */
  function CurrentSectorOf(id: string): (r: SectorConfig)
    ensures r in SectorConfigs()
    ensures (exists k :: 0 <= k < |SectorConfigs()| && SectorConfigs()[k].id == id) ==>
              r.id == id
    ensures (forall k :: 0 <= k < |SectorConfigs()| ==> SectorConfigs()[k].id != id) ==>
              r == SectorConfigs()[0]
  {
    Find(SectorConfigs(), HasSectorId(id)).GetOr(SectorConfigs()[0])
  }

  /** The resolved sector has the stored id exactly when the id is one of the three known ones. */
  lemma ResolvesExactlyKnownIds(id: string)
    ensures CurrentSectorOf(id).id == id <==> id in {"agriculture", "education", "health"}
  {
    var cs := SectorConfigs();
    if id in {"agriculture", "education", "health"} {
      if id == "agriculture" {
        assert cs[0].id == id;
      } else if id == "education" {
        assert cs[1].id == id;
      } else {
        assert cs[2].id == id;
      }
    } else {
      assert forall k :: 0 <= k < |cs| ==> cs[k].id != id;
    }
  }

  /** An unknown id stays stored but resolves to agriculture. */
  lemma UnknownIdFallsBack(id: string)
    requires id !in {"agriculture", "education", "health"}
    ensures CurrentSectorOf(id) == SectorConfig("agriculture", "Agriculture")
  {
    assert forall k :: 0 <= k < |SectorConfigs()| ==> SectorConfigs()[k].id != id;
  }

  class SectorStore {
    var currentSectorId: string
    var isConfigurable: bool

    constructor ()
      ensures currentSectorId == "agriculture" && !isConfigurable
      ensures CurrentSector() == SectorConfig("agriculture", "Agriculture")
    {
      currentSectorId := "agriculture";
      isConfigurable := false;
      new;
      assert SectorConfigs()[0].id == "agriculture";
    }

    /** `currentSector`: the stored id resolved against the configurations. */
    function CurrentSector(): (r: SectorConfig)
      reads this
      ensures r in SectorConfigs()
      ensures r.id == currentSectorId <==> currentSectorId in {"agriculture", "education", "health"}
    {
      ResolvesExactlyKnownIds(currentSectorId);
      CurrentSectorOf(currentSectorId)
    }

    /** `availableSectors`: always the whole configuration list, whatever is selected. */
    function AvailableSectors(): (cs: seq<SectorConfig>)
      reads this
      ensures cs == SectorConfigs() && CurrentSector() in cs
    {
      SectorConfigs()
    }

    /** `switchSector`: the id is stored as given, without checking it against the configurations. */
    method SwitchSector(sectorId: string)
      modifies this
      ensures currentSectorId == sectorId && isConfigurable == old(isConfigurable)
      ensures CurrentSector() == CurrentSectorOf(sectorId)
    {
      currentSectorId := sectorId;
    }

    /** `toggleConfigMode`: negates the flag, so two toggles restore it. */
    method ToggleConfigMode()
      modifies this
      ensures isConfigurable == !old(isConfigurable)
      ensures currentSectorId == old(currentSectorId)
    {
      isConfigurable := !isConfigurable;
    }
  }
}
